=== FILE: README.md ===
# Messaging: a Dafny model of the sequential core

This project models the sequential, library-independent logic of the
Messaging library. The library sends `Packet` objects between servers over a
message broker. It keeps two revisions of that logic: the earlier
`dev.sergivos.core.messaging` tree and the later `dev.sergivos.messaging` tree.
The model covers both revisions and states where they differ.

- **Wire codec (`PacketUtils`).**
  - Minecraft-style varints: 7-bit groups of the 32-bit pattern, with the continuation bit 0x80, at most five bytes.
  - Length-prefixed UTF-8 strings and byte arrays, with their layered bounds checks.
  - 16-byte big-endian UUIDs in two layouts.
  - Varint integer arrays and string arrays.
  - Every reader is a function of the written bytes and the reader index. It returns the value and the new reader index (`Done`), or the exception and the reader index at which it escaped (`Threw`).
  - The two revisions' codecs differ only in the exception class their frame checks throw. `Revision` selects it.
- **Packet registries (`PacketManager`).**
  - The later registry: a mapper function, a set of registered classes and a map from id to supplier.
  - The earlier registry: simple-name ids, and a reflective constructor checked at registration.
- **Sorting and percentile (`MathUtil`).**
  - selectionSort, the three-way quickSort with its median-of-three and pseudomedian-of-nine pivots, med3, both swaps and percentile.
  - Each is stated on sequences against an independent reference sort.
- **Messaging service, sequential parts.**
  - The channel name.
  - The frame: sender UUID, varint-prefixed type id, then the payload.
  - The send path, including its unregistered-packet check.
  - The receive path's decode / drop / log decision.
  - The 150-slot adaptive capacity window.
- **NoCompression in both revisions.** It closes the round trip from a packet through the broker bytes back to a posted packet.

Every packet is modelled like the earlier `SimplePacket`: a single string
written with `writeString` and read back with `readString`.

The class Javadoc of MessagingService draws the frame as a server ID
labelled "String", then a message-id UUID, then the type and the data. Both
revisions write the server ID as a 16-byte UUID and neither writes or reads
a message ID. The model follows the code.

## Model

| member | source | states |
|---|---|---|
| VarInt.Write | src/main/java/dev/sergivos/core/messaging/packets/PacketUtils.java:69-79 | writeVarInt emits 1 to 5 bytes. The output is a single byte exactly for 0..127, and every negative int takes all five bytes. |
| VarInt.WriteShape | src/main/java/dev/sergivos/messaging/packets/PacketUtils.java:65-75 | Every emitted byte except the last carries the continuation bit 0x80; the last one has it clear. |
| VarInt.EncodedLength | src/main/java/dev/sergivos/messaging/packets/PacketUtils.java:65-75 | An unsigned 32-bit pattern needs one group exactly when it is below 0x80, and five from 2^28 up. |
| VarInt.GroupCount | src/main/java/dev/sergivos/messaging/packets/PacketUtils.java:65-75 | The loop stops as soon as the remaining value fits in 7 bits, so the number of groups is the least that can hold the value. |
| VarInt.ReadSafely | src/main/java/dev/sergivos/messaging/packets/PacketUtils.java:46-57 | readVarIntSafely never reads more than five bytes, nor past the readable bytes. |
| VarInt.Read | src/main/java/dev/sergivos/messaging/packets/PacketUtils.java:30-36 | A value readVarInt returns is never Integer.MIN_VALUE and took 1 to 5 bytes. Otherwise it throws RuntimeException "Bad varint decoded". |
| VarInt.ReadUnsigned | src/main/java/dev/sergivos/messaging/packets/PacketUtils.java:46-57 | Accumulating the groups of an encoding gives back the same 32-bit pattern, and the reader index ends after the last group. |
| VarInt.RoundTrip | src/main/java/dev/sergivos/core/messaging/packets/PacketUtils.java:34-79 | readVarInt(writeVarInt(v)) is v for every int except Integer.MIN_VALUE, and the reader index advances by exactly the bytes written. |
| VarInt.MinValueRejected | src/main/java/dev/sergivos/core/messaging/packets/PacketUtils.java:34-61 | Integer.MIN_VALUE encodes as 80 80 80 80 08. Reading that decodes to the sentinel, and readVarInt throws after five bytes. |
| VarInt.ReadStopsAtTerminator | src/main/java/dev/sergivos/core/messaging/packets/PacketUtils.java:50-61 | A varint that reads successfully ends at the first byte without 0x80. Every byte before it has the bit set. |
| VarInt.UnterminatedRejected | src/main/java/dev/sergivos/messaging/packets/PacketUtils.java:30-57 | An empty buffer, or up to five readable bytes that all carry 0x80, makes readVarInt throw. The reader index is then at the buffer end or five bytes on. |
| Utf8.DecodeEncode | src/main/java/dev/sergivos/messaging/packets/PacketUtils.java:98-124 | Decoding the UTF-8 bytes writeString puts out gives back the original string, as new String(bytes, UTF_8) does for getBytes(UTF_8). |
| BigEndian.DecodeEncode | src/main/java/dev/sergivos/messaging/packets/PacketUtils.java:181-190 | Reading n big-endian bytes gives back the number that was written in n bytes. |
| BigEndian.EncodeDecode | src/main/java/dev/sergivos/messaging/packets/PacketUtils.java:181-190 | Every n-byte string is the n-byte writing of the number it spells, so the byte layout is a bijection. |
| BigEndian.DecodeAppend | src/main/java/dev/sergivos/messaging/packets/PacketUtils.java:198-206 | Two consecutive fields read as one number: the first field gives the high-order part. This is how two ints make a long. |
| Codec.WriteString | src/main/java/dev/sergivos/messaging/packets/PacketUtils.java:120-124 | writeString writes the varint byte count of the UTF-8 form, then those bytes. |
| Codec.ReadStringChecks | src/main/java/dev/sergivos/core/messaging/packets/PacketUtils.java:102-116 | A negative length, a length over cap*4 (int-wrapped) or fewer readable bytes than the length each throw the revision's frame-check exception, with the reader index just after the prefix. Otherwise the reader index ends at prefix + length, whether the decoded string is accepted or rejected for exceeding the cap. |
| Codec.StringRoundTrip | src/main/java/dev/sergivos/messaging/packets/PacketUtils.java:93-124 | readString(buf, cap) gives back what writeString wrote when the string has at most cap UTF-16 units and 0 <= cap <= 2^29 - 1, so that cap*4 does not wrap. The reader index ends after the string. |
| Codec.DefaultStringRoundTrip | src/main/java/dev/sergivos/messaging/packets/PacketUtils.java:22-124 | readString(buf) uses cap 65536 and round-trips every string within it. |
| Codec.WrappedCapRejects | src/main/java/dev/sergivos/messaging/packets/PacketUtils.java:98-103 | A cap of 2^30 makes cap*4 wrap to 0, so even a one-byte string is rejected by the size check. |
| Codec.ReadStringCapped | src/main/java/dev/sergivos/messaging/packets/PacketUtils.java:93-112 | A string readString(buf, cap) returns has at most cap UTF-16 units and lies within the readable bytes. A failure is the varint's RuntimeException or the revision's frame-check exception. |
| Codec.ReadString | src/main/java/dev/sergivos/messaging/packets/PacketUtils.java:22-79 | readString(buf) returns at most 65536 UTF-16 units, read from within the readable bytes. It fails only with the varint's RuntimeException or the revision's frame-check exception, at an index within the buffer. |
| Codec.WriteByteArray | src/main/java/dev/sergivos/messaging/packets/PacketUtils.java:154-157 | writeByteArray writes the varint length and then the bytes. |
| Codec.ReadByteArrayCapped | src/main/java/dev/sergivos/core/messaging/packets/PacketUtils.java:146-156 | An array readByteArray returns is at most cap long and is exactly the bytes just before the new reader index. |
| Codec.ReadByteArray | src/main/java/dev/sergivos/messaging/packets/PacketUtils.java:22-132 | readByteArray(buf) returns at most 65536 bytes, exactly those just before the new reader index. It fails only with the varint's RuntimeException or the revision's frame-check exception. |
| Codec.ByteArrayChecks | src/main/java/dev/sergivos/messaging/packets/PacketUtils.java:142-152 | readByteArray succeeds exactly when the length is non-negative, within cap and within the readable bytes. Each failure throws the revision's frame-check exception. |
| Codec.ByteArrayRoundTrip | src/main/java/dev/sergivos/core/messaging/packets/PacketUtils.java:146-161 | readByteArray(writeByteArray(a)) is a for every array no longer than cap, with the reader index after it. |
| Codec.ByteArrayOverCapRejected | src/main/java/dev/sergivos/messaging/packets/PacketUtils.java:142-157 | A written array longer than cap is rejected by the cap check. |
| Codec.ReadIntegerArray | src/main/java/dev/sergivos/messaging/packets/PacketUtils.java:165-173 | readIntegerArray stays within the readable bytes, and a negative count throws IllegalArgumentException. |
| Codec.IntegerArrayRoundTrip | src/main/java/dev/sergivos/core/messaging/packets/PacketUtils.java:169-177 | A count followed by that many varints reads back as the same int array, provided no element is Integer.MIN_VALUE. |
| Codec.ReadLong | src/main/java/dev/sergivos/messaging/packets/PacketUtils.java:181-185 | readLong succeeds exactly when eight bytes are readable. Otherwise it throws IndexOutOfBoundsException without moving the reader index. |
| Codec.LongRoundTrip | src/main/java/dev/sergivos/messaging/packets/PacketUtils.java:181-190 | readLong gives back the long writeLong wrote, two's complement included. |
| Codec.IntRoundTrip | src/main/java/dev/sergivos/messaging/packets/PacketUtils.java:198-219 | readInt gives back the int writeInt wrote. |
| Codec.WriteUuid | src/main/java/dev/sergivos/messaging/packets/PacketUtils.java:187-190 | writeUuid writes 16 bytes: the first eight are the most significant half in big-endian two's complement, the last eight the least significant half. |
| Codec.ReadUuid | src/main/java/dev/sergivos/messaging/packets/PacketUtils.java:181-185 | readUuid succeeds exactly when 16 bytes are readable and then consumes 16. Otherwise it throws IndexOutOfBoundsException, with the reader index past the first long when eight bytes were readable. |
| Codec.WriteUuidIntArray | src/main/java/dev/sergivos/messaging/packets/PacketUtils.java:214-219 | writeUuidIntArray's four ints spell the same two big-endian 64-bit halves as writeUuid, most significant first. |
| Codec.ReadUuidIntArray | src/main/java/dev/sergivos/messaging/packets/PacketUtils.java:198-206 | readUuidIntArray succeeds exactly when 16 bytes are readable and then consumes 16. Otherwise it throws IndexOutOfBoundsException after the whole ints that were readable. |
| Codec.UuidRoundTrip | src/main/java/dev/sergivos/core/messaging/packets/PacketUtils.java:185-194 | readUuid(writeUuid(u)) is u, consuming exactly 16 bytes, msb half first. |
| Codec.UuidIntArrayRoundTrip | src/main/java/dev/sergivos/core/messaging/packets/PacketUtils.java:202-223 | readUuidIntArray(writeUuidIntArray(u)) is u, consuming exactly 16 bytes. |
| Codec.UuidLayoutsAgree | src/main/java/dev/sergivos/messaging/packets/PacketUtils.java:187-219 | writeUuidIntArray writes the same 16 bytes as writeUuid: the high int of each long comes first. |
| Codec.LongAsTwoInts | src/main/java/dev/sergivos/messaging/packets/PacketUtils.java:214-219 | Writing the (int) of long >> 32 and then the (int) of the long gives the long's eight big-endian bytes. |
| Codec.LongFromTwoInts | src/main/java/dev/sergivos/messaging/packets/PacketUtils.java:198-206 | Joining two read ints as (long) hi << 32 with lo & 0xFFFFFFFF gives the long readLong reads from the same bytes. |
| Codec.UuidReadersAgree | src/main/java/dev/sergivos/messaging/packets/PacketUtils.java:181-206 | The two UUID readers succeed on the same buffers and then return the same UUID and reader index, so they are interchangeable. |
| Codec.UuidReadersFailApart | src/main/java/dev/sergivos/messaging/packets/PacketUtils.java:181-206 | With only four readable bytes both UUID readers throw. readUuid throws before consuming anything; readUuidIntArray has already consumed its first int. |
| Codec.ReadStringArray | src/main/java/dev/sergivos/messaging/packets/PacketUtils.java:227-234 | readStringArray stays within the readable bytes, and a negative count throws NegativeArraySizeException from the array allocation. |
| Codec.StringsRoundTrip | src/main/java/dev/sergivos/messaging/packets/PacketUtils.java:227-247 | Strings written one after another read back in order, each reader leaving the index on the next field. |
| Codec.WriteStringArray | src/main/java/dev/sergivos/messaging/packets/PacketUtils.java:242-247 | The frame writeStringArray produces starts with a varint that reads back as the array's length. |
| Codec.StringArrayRoundTrip | src/main/java/dev/sergivos/core/messaging/packets/PacketUtils.java:231-251 | The count prefix of writeStringArray(a) is a.length. readStringArray gives back a when every element fits the default cap. |
| Codec.StringArrayAccepted | src/main/java/dev/sergivos/messaging/packets/PacketUtils.java:227-234 | A non-negative count followed by that many readable strings is accepted as exactly those strings. |
| Codec.AtSplit | src/main/java/dev/sergivos/messaging/packets/PacketUtils.java:181-247 | Consecutive writes lie at consecutive reader positions, so concatenated fields are read back field by field. |
| Compression.CompressLater | src/main/java/dev/sergivos/messaging/compression/NoCompression.java:13-16 | The later compress returns all bytes in [0, writerIndex). It leaves the reader index at 0 and keeps the contents, writer index and maximum capacity. |
| Compression.CompressEarlier | src/main/java/dev/sergivos/core/messaging/compression/NoCompression.java:12-16 | The earlier compress returns exactly the readable bytes from the reader index on, and the buffer is unchanged. |
| Compression.Decompress | src/main/java/dev/sergivos/messaging/compression/NoCompression.java:19-23 | decompress builds a buffer whose capacity is data.length, with the reader index at 0 and the writer index at data.length. |
| Compression.DecompressReadable | src/main/java/dev/sergivos/core/messaging/compression/NoCompression.java:19-23 | The readable bytes of decompress(data) are exactly data. |
| Compression.LaterRoundTrip | src/main/java/dev/sergivos/messaging/compression/NoCompression.java:13-23 | In the later revision, decompress(compress(b)) holds every byte ever written to b. |
| Compression.EarlierRoundTrip | src/main/java/dev/sergivos/core/messaging/compression/NoCompression.java:12-23 | In the earlier revision, decompress(compress(b)) holds b's readable bytes. |
| Compression.RevisionsAgree | src/main/java/dev/sergivos/messaging/compression/NoCompression.java:13-16 | The two compress methods give the same bytes if and only if nothing has been read from the buffer, or nothing was written. |
| Compression.RevisionsDiffer | src/main/java/dev/sergivos/core/messaging/compression/NoCompression.java:12-16 | On a buffer with two bytes written and one read, the later compress resends both bytes and the earlier sends only the unread one. |
| Compression.EmptyCases | src/main/java/dev/sergivos/messaging/compression/NoCompression.java:13-23 | An empty buffer compresses to no bytes in both revisions, and no bytes decompress to an empty buffer of capacity 0. |
| Compression.LaterCompressIdempotent | src/main/java/dev/sergivos/messaging/compression/NoCompression.java:13-16 | Compressing twice in the later revision gives the same bytes and buffer as compressing once. |
| Packets.Read | src/main/java/dev/sergivos/core/messaging/packets/types/SimplePacket.java:25-28 | A packet that read succeeds keeps its class and has a message within the default cap and writable again. A failure is readString's RuntimeException or the revision's frame-check exception, at an index within the buffer. |
| Packets.ReadWrite | src/main/java/dev/sergivos/core/messaging/packets/types/SimplePacket.java:25-33 | What a packet writes, read into a fresh instance of its class, gives an equal packet, and the reader index ends after its bytes. |
| PacketManager.Default | src/main/java/dev/sergivos/messaging/packets/PacketManager.java:27-29 | The default registry maps each class to its simple name. |
| PacketManager.Register | src/main/java/dev/sergivos/messaging/packets/PacketManager.java:51-67 | A class already registered is rejected first. An id that already has a supplier is rejected next, naming whichever supplier holds it. Otherwise exactly the class and the pair id to supplier are added, and every other entry is kept. |
| PacketManager.Unregister | src/main/java/dev/sergivos/messaging/packets/PacketManager.java:77-86 | An unregistered class is rejected. Otherwise exactly that class and its mapped id are removed, and nothing else changes. |
| PacketManager.Id | src/main/java/dev/sergivos/messaging/packets/PacketManager.java:95-103 | id(p) is the mapped id of p's class if and only if the class is registered and the id has a supplier; otherwise null. |
| PacketManager.NewInstance | src/main/java/dev/sergivos/messaging/packets/PacketManager.java:111-118 | newInstance(id) is null exactly for an id without a supplier; otherwise it is a new instance from that supplier. |
| PacketManager.EmptyInvariant | src/main/java/dev/sergivos/messaging/packets/PacketManager.java:36-40 | A new registry satisfies the invariant: the supplier ids are the mapped ids of the registered classes, and the mapping is injective on them. |
| PacketManager.RegisterPreserves | src/main/java/dev/sergivos/messaging/packets/PacketManager.java:51-67 | A successful register keeps that invariant. |
| PacketManager.UnregisterPreserves | src/main/java/dev/sergivos/messaging/packets/PacketManager.java:77-86 | A successful unregister keeps that invariant. |
| PacketManager.IdOfRegistered | src/main/java/dev/sergivos/messaging/packets/PacketManager.java:95-103 | Under the invariant, id(p) is non-null if and only if p's class is registered. |
| PacketManager.RegisterThenLookup | src/main/java/dev/sergivos/messaging/packets/PacketManager.java:51-118 | After a successful register, the class's packets have its mapped id, and newInstance on that id uses the new supplier. |
| PacketManager.UnregisterThenRegister | src/main/java/dev/sergivos/messaging/packets/PacketManager.java:51-86 | After unregister, the same class can be registered again. |
| PacketManager.SameSimpleNameCollides | src/main/java/dev/sergivos/messaging/packets/PacketManager.java:58-63 | Two different classes with the same simple name collide under the default mapper: the second register fails on the id. |
| CorePacketManager.Register | src/main/java/dev/sergivos/core/messaging/packets/PacketManager.java:25-37 | A class or simple name already present is rejected. So is a class whose constructor cannot be called. Otherwise exactly class to name and name to class are added, and the existing entries are kept. |
| CorePacketManager.Id | src/main/java/dev/sergivos/core/messaging/packets/PacketManager.java:39-47 | id(p) is the simple name if and only if the class is in typeToId and the name in idToType; otherwise null. |
| CorePacketManager.Read | src/main/java/dev/sergivos/core/messaging/packets/PacketManager.java:49-62 | read(id, buf) is null, without consuming anything, if and only if the id is unknown. A packet it returns is of the id's class with a message within the default cap. It throws only for a known id, and only the RuntimeException of the earlier readString. |
| CorePacketManager.EmptyInvariant | src/main/java/dev/sergivos/core/messaging/packets/PacketManager.java:16-19 | A new registry satisfies the invariant: equal map sizes, each class maps to its simple name and back, and every id's class is in typeToId. |
| CorePacketManager.RegisterPreserves | src/main/java/dev/sergivos/core/messaging/packets/PacketManager.java:25-37 | A successful register keeps the invariant and adds exactly one to numerRegisteredPackets. |
| CorePacketManager.IdOfRegistered | src/main/java/dev/sergivos/core/messaging/packets/PacketManager.java:39-47 | Under the invariant, id(p) is non-null if and only if p's class is registered, and the id leads back to that class. |
| CorePacketManager.CountIsSuccesses | src/main/java/dev/sergivos/core/messaging/packets/PacketManager.java:21-37 | After any sequence of register calls, numerRegisteredPackets has grown by the number that succeeded. |
| CorePacketManager.Count | src/main/java/dev/sergivos/core/messaging/packets/PacketManager.java:21-23 | Under the invariant, numerRegisteredPackets counts the registered classes as well as the ids. |
| CorePacketManager.ReadRegistered | src/main/java/dev/sergivos/core/messaging/packets/PacketManager.java:49-62 | Reading a registered packet's own bytes by its id gives an equal packet, and the reader index ends after them. |
| MathUtil.Insert | src/main/java/dev/sergivos/messaging/utils/MathUtil.java:72-82 | Inserting into a sorted sequence keeps it sorted and adds exactly the one element. It is the step of the reference sort the Java sorts are compared against. |
| MathUtil.SortSpec | src/main/java/dev/sergivos/messaging/utils/MathUtil.java:23-25 | The reference sort returns a sorted permutation of its input. |
| MathUtil.SortedUnique | src/main/java/dev/sergivos/messaging/utils/MathUtil.java:23-25 | Two sorted permutations of the same elements are equal, so any correct sort has exactly one answer. |
| MathUtil.Swap | src/main/java/dev/sergivos/messaging/utils/MathUtil.java:97-101 | swap(x, a, b) exchanges two elements and changes nothing else. |
| MathUtil.SwapInvolution | src/main/java/dev/sergivos/messaging/utils/MathUtil.java:97-101 | Swapping the same two positions twice restores the array. |
| MathUtil.SwapPermOn | src/main/java/dev/sergivos/messaging/utils/MathUtil.java:97-101 | A swap inside a range permutes that range and leaves everything outside it alone. |
| MathUtil.SwapBlockAt | src/main/java/dev/sergivos/messaging/utils/MathUtil.java:93-95 | swap(x, a, b, n) on disjoint blocks exchanges the pairs (a+i, b+i) for i < n and changes nothing else. |
| MathUtil.SwapBlockPermOn | src/main/java/dev/sergivos/messaging/utils/MathUtil.java:93-95 | A block swap inside a range permutes that range. |
| MathUtil.VecSwap | src/main/java/dev/sergivos/messaging/utils/MathUtil.java:93-95 | The loop of swap(x, a, b, n) computes the block exchange. |
| MathUtil.SelectionSort | src/main/java/dev/sergivos/messaging/utils/MathUtil.java:72-82 | selectionSort(a, from, to) leaves a[from..to) sorted and a permutation of its old contents. Elements outside the range are unchanged. |
| MathUtil.MinIndex | src/main/java/dev/sergivos/messaging/utils/MathUtil.java:74-75 | The inner loop finds the first position in [i, to) holding the least value of that range: the strict `<` never moves past an equal element. |
| MathUtil.Med3 | src/main/java/dev/sergivos/messaging/utils/MathUtil.java:84-91 | med3 returns one of its three indices, and the value there is the median of the three values. |
| MathUtil.Med3Symmetric | src/main/java/dev/sergivos/messaging/utils/MathUtil.java:84-91 | The median value med3 selects does not depend on the order of its three arguments. |
| MathUtil.Pivot | src/main/java/dev/sergivos/messaging/utils/MathUtil.java:35-44 | The pivot index lies in the range. For ranges up to 128 long it holds the median of the first, middle and last elements. |
| MathUtil.Partition | src/main/java/dev/sergivos/messaging/utils/MathUtil.java:46-60 | The partition loop permutes the range into four runs: equal to the pivot, less, greater, equal. The scan indices cross by exactly one. |
| MathUtil.PivotSurvives | src/main/java/dev/sergivos/messaging/utils/MathUtil.java:46-60 | The pivot value itself lands in one of the equal runs, so the outer parts left to sort are strictly shorter than the range. |
| MathUtil.SwapRunsToMiddle | src/main/java/dev/sergivos/messaging/utils/MathUtil.java:61-66 | The two block swaps move both equal runs into the middle, giving less, equal, greater, and permute the range. |
| MathUtil.PartitionAround | src/main/java/dev/sergivos/messaging/utils/MathUtil.java:46-66 | Partitioning around x[m] permutes the range into less, equal and greater parts, with the outer parts shorter than the range. |
| MathUtil.QuickSortRange | src/main/java/dev/sergivos/messaging/utils/MathUtil.java:27-70 | quickSort(x, from, to) leaves x[from..to) sorted and a permutation of its old contents, with everything outside it unchanged. |
| MathUtil.QuickSort | src/main/java/dev/sergivos/messaging/utils/MathUtil.java:23-25 | quickSort(x) returns a sorted permutation of x, equal to the reference sort. |
| MathUtil.CeilDiv | src/main/java/dev/sergivos/messaging/utils/MathUtil.java:10 | Math.ceil of p / q is the least integer r not below p / q, for either sign of q: (r - 1) * q < p <= r * q when q > 0, and r * q <= p < (r - 1) * q when q < 0. The negative case is reachable because list.length * 100 wraps for lists of 2^25 or more elements. |
| MathUtil.Saturate | src/main/java/dev/sergivos/messaging/utils/MathUtil.java:10 | The (int) cast of a whole double keeps values in the int range and clamps the others to its ends. |
| MathUtil.Percentile | src/main/java/dev/sergivos/messaging/utils/MathUtil.java:8-12 | percentile sorts the list and returns list[ceil(p / (len*100)) - 1], or throws ArrayIndexOutOfBoundsException for an index outside the list. For 0 < p <= len*100 it returns the least element. |
| MathUtil.PercentileIsMinimum | src/main/java/dev/sergivos/messaging/utils/MathUtil.java:10-11 | For any 0 < p <= len*100 the index read is 0, so the "p-th percentile" is the minimum. |
| MathUtil.EmptyPercentileThrows | src/main/java/dev/sergivos/messaging/utils/MathUtil.java:10-11 | On an empty list the index is never a valid one, so percentile always throws. |
| MathUtil.SortedHeadIsLeast | src/main/java/dev/sergivos/messaging/utils/MathUtil.java:8-11 | Once sorted, the first element is an element of the list and no greater than any other. |
| CapacityWindow.New | src/main/java/dev/sergivos/messaging/MessagingService.java:55-70 | A new service has 150 zeroed slots, the counter at 0 and a capacity of 2048. |
| CapacityWindow.InitialCapacity | src/main/java/dev/sergivos/messaging/MessagingService.java:241-248 | The capacity getInitialCapacity hands to a send buffer stays the same across every send recorded while a slot is still free. |
| CapacityWindow.AddCapacity | src/main/java/dev/sergivos/messaging/MessagingService.java:250-263 | With a free slot, the size is stored at the counter, the counter advances, and nothing else changes. With all 150 full, the slots are sorted in place and the counter resets. The new capacity is percentile(capacities, 80), which is the least stored size, and the call's own size is dropped. |
| CapacityWindow.Feed | src/main/java/dev/sergivos/messaging/MessagingService.java:250-263 | Any sequence of addCapacity calls keeps the window well formed: 150 int slots, with the counter within them. |
| CapacityWindow.FeedAppend | src/main/java/dev/sergivos/messaging/MessagingService.java:250-263 | Recording two runs of sizes is recording the first, then the second. |
| CapacityWindow.StoresInOrder | src/main/java/dev/sergivos/messaging/MessagingService.java:250-253 | While slots remain, sizes are stored in order from the counter on. The counter advances by one per size, and neither the capacity nor any other slot changes. |
| CapacityWindow.FirstSamplesStored | src/main/java/dev/sergivos/messaging/MessagingService.java:241-253 | A new service starts every buffer at 2048 for its first 150 sends and keeps their sizes, in order, in slots 0 to 149. |
| CapacityWindow.RecomputeOnCall151 | src/main/java/dev/sergivos/messaging/MessagingService.java:250-263 | From a reset counter, the 151st call sets the capacity to the least of the 150 stored sizes. It leaves them sorted, resets the counter and discards its own sample. |
| CapacityWindow.NewServiceCall151 | src/main/java/dev/sergivos/core/messaging/MessagingService.java:235-257 | For a new service, the capacity after 151 sends is the least of the first 150 sizes, and the counter is back at 0. |
| Frames.Frame | src/main/java/dev/sergivos/messaging/MessagingService.java:172-177 | The frame is the 16-byte server UUID, then the varint-prefixed type id, then the payload, with no message-id field. |
| Frames.ReadHeader | src/main/java/dev/sergivos/messaging/MessagingService.java:201-208 | handleMessage reads the sender and then the type id within the default cap. Fewer than 16 bytes throws IndexOutOfBoundsException. |
| Frames.HeaderRoundTrip | src/main/java/dev/sergivos/messaging/MessagingService.java:172-208 | Decoding a frame recovers the sender UUID and type id it was built with, whatever the payload. The reader index is left on the payload's first byte, and the bytes from there on are the payload. |
| Frames.PayloadAt | src/main/java/dev/sergivos/core/messaging/MessagingService.java:165-172 | The packet's own bytes sit in the frame right after the header. |
| MessagingService.Trim | src/main/java/dev/sergivos/messaging/MessagingService.java:85 | trim() leaves an empty string, or one whose first and last characters are above U+0020. |
| MessagingService.Underscored | src/main/java/dev/sergivos/messaging/MessagingService.java:85 | replace(" ", "_") changes exactly the spaces, one for one. |
| MessagingService.ServiceName | src/main/java/dev/sergivos/messaging/MessagingService.java:85 | The channel name contains no space and neither starts nor ends with a blank. |
| MessagingService.ServiceNameChars | src/main/java/dev/sergivos/messaging/MessagingService.java:85 | The channel name is the given name from its first to its last non-blank character, each space in it replaced by an underscore. |
| MessagingService.ServiceNameEmpty | src/main/java/dev/sergivos/messaging/MessagingService.java:85 | The channel name is empty if and only if every character of the given name is blank. |
| MessagingService.ServiceNameIdempotent | src/main/java/dev/sergivos/messaging/MessagingService.java:85 | Normalising a normalised name changes nothing. |
| MessagingService.New | src/main/java/dev/sergivos/messaging/MessagingService.java:82-95 | The constructor stores the normalised name. The capacity starts at 2048. |
| MessagingService.Send | src/main/java/dev/sergivos/messaging/MessagingService.java:160-191 | sendPacket throws IllegalStateException, naming the simple name, if and only if id(packet) is null, and then nothing changes. Otherwise the broker receives exactly the frame of the server id, the packet's id and its bytes, and the frame's size is recorded in the capacity window. |
| MessagingService.HandleMessage | src/main/java/dev/sergivos/messaging/MessagingService.java:198-223 | A message shorter than 16 bytes is logged as IndexOutOfBoundsException. A dropped message names an id with no supplier. A posted packet is an instance of some supplier's class. Nothing escapes handleMessage. |
| MessagingService.Dispatch | src/main/java/dev/sergivos/messaging/MessagingService.java:209-219 | After the header, the message is dropped with its sender and id if and only if newInstance returns null, so no payload is read. Otherwise the packet is read from the payload and posted, or the exception is logged. |
| MessagingService.DispatchPacket | src/main/java/dev/sergivos/messaging/MessagingService.java:209-217 | A packet's bytes after the header, under an id whose supplier makes its class, post an equal packet from the header's sender. |
| MessagingService.HandleFrame | src/main/java/dev/sergivos/messaging/MessagingService.java:198-217 | A frame carrying a packet's bytes under an id whose supplier makes the packet's class posts an equal packet from the frame's sender. |
| MessagingService.SendThenHandle | src/main/java/dev/sergivos/messaging/MessagingService.java:160-217 | The bytes sent for a registered packet, handled by a receiver whose supplier for that id makes the same class, post an equal packet from the sending server. |
| MessagingService.SendToSelf | src/main/java/dev/sergivos/messaging/MessagingService.java:160-217 | A service that receives its own message posts the packet it sent. |
| MessagingService.UnknownTypeDropped | src/main/java/dev/sergivos/messaging/MessagingService.java:208-214 | A frame whose type id has no supplier is dropped with its sender and id, whatever follows the header. |
| CoreMessagingService.New | src/main/java/dev/sergivos/core/messaging/MessagingService.java:75-88 | The earlier constructor stores the name verbatim. The capacity starts at 2048. |
| CoreMessagingService.NamesDiffer | src/main/java/dev/sergivos/core/messaging/MessagingService.java:78 | " my service " stays as it is in the earlier revision, while the later one makes it "my_service". |
| CoreMessagingService.Send | src/main/java/dev/sergivos/core/messaging/MessagingService.java:152-184 | sendPacket throws IllegalStateException if and only if id(packet) is null, with nothing changed. Otherwise it sends the frame of the server id, the simple name and the packet's bytes, and records the frame's size. |
| CoreMessagingService.HandleMessage | src/main/java/dev/sergivos/core/messaging/MessagingService.java:191-217 | A message shorter than 16 bytes is logged. A dropped message names an unknown id. A posted packet belongs to a registered class. Any exception is caught and logged. |
| CoreMessagingService.Dispatch | src/main/java/dev/sergivos/core/messaging/MessagingService.java:204-213 | After the header, the message is dropped if and only if packetManager.read returns null for an unknown id. A posted packet's class is the one registered for the id. |
| CoreMessagingService.HandleFrame | src/main/java/dev/sergivos/core/messaging/MessagingService.java:196-211 | A frame carrying a registered packet's bytes under its simple name posts an equal packet from the frame's sender. |
| CoreMessagingService.SendThenHandle | src/main/java/dev/sergivos/core/messaging/MessagingService.java:152-211 | The bytes sent for a registered packet, handled where its class is registered, post an equal packet from the sending server. |
| CoreMessagingService.UnknownTypeDropped | src/main/java/dev/sergivos/core/messaging/MessagingService.java:204-209 | A frame whose type id is not registered is dropped with its sender and id. |
| CoreMessagingService.SameFrameAsLater | src/main/java/dev/sergivos/core/messaging/MessagingService.java:165-172 | For a packet registered under the same id, both revisions send the same bytes, because the send buffer has not been read when it is compressed. |

## Left out

- **Brokers.** NatsBroker, RedisBroker and both MessagingBroker classes do network I/O. The bytes handed to `broker.sendMessage` are the `Sent` outcome, and `handleMessage` takes the received bytes as its argument.
- **Concurrency.**
  - The shutdown lock, the executor and its shutdown, and the choice between direct and async execution are left out.
  - The capacity lock and the AtomicInteger counter are left out too; addCapacity is modelled as sequential calls.
  - The concurrent maps of both registries are plain maps.
- **Guava EventBus.** Registering listeners and dispatching posted packets is reflection over the listeners. The model stops at the `Posted` outcome.
- **Logging.** The logger is left out. A warning is the `Dropped` outcome and an error is the `Logged` outcome.
- **Netty buffer management.** Pooling, reference counting, `release()` and buffer growth are left out. The initial capacity a send buffer is allocated with does not change the bytes written, so the window's capacity only flows into the model's state.
- **readComponent and writeComponent.** These call the Gson/Adventure serializer, a foreign library.
- **Utf8.Decode.** Well-formed input is decoded exactly. Each byte that does not start a well-formed sequence becomes one U+FFFD; Java's replacement of maximal ill-formed subparts is not reproduced. Java strings are modelled as sequences of Unicode scalar values, so unpaired surrogates are not represented.
- Codec.Writable and Codec.AllWritable: strings whose UTF-8 form is longer than Integer.MAX_VALUE bytes are not modelled, because no int length prefix can describe them. The writers require Writable.
- MessagingService.Send and CoreMessagingService.Send: frames longer than Integer.MAX_VALUE bytes are excluded by their `Sendable` precondition. In Java, Netty's buffer throws IndexOutOfBoundsException when the frame reaches its maximum capacity. sendPacket catches and logs it, and its finally block still records the partial writer index with addCapacity (src/main/java/dev/sergivos/messaging/MessagingService.java:172-187). That path is not modelled.
- **Codec.IntegerArrayLayout.** PacketUtils has no writer for integer arrays. The layout a reader accepts is defined only for the round trip.
- **MathUtil.Percentile.** The percentile argument is a Java `double`; the model takes whole int percentiles, which is all addCapacity passes. `list.length * 100` is int multiplication and is wrapped, and the quotient is computed exactly: for these magnitudes a double division never lands on the wrong side of an integer.
- **MathUtil.QuickSortRange.** The index arithmetic of the Java code cannot overflow for arrays shorter than Integer.MAX_VALUE / 2 and is modelled on unbounded integers. Ranges under 16 elements go to selectionSort in the body; no separate contract states this, because both paths give the same sorted range.
- **The earlier revision's MathUtil.** `dev/sergivos/core/messaging/utils/MathUtil.java` is not part of this model. Its percentile is taken to be the later one.
- **Packets.** Every packet is modelled as the earlier SimplePacket with one string. Java leaves the field null on a fresh instance; the model uses "", since the receive paths always call `read` first. Exceptions thrown while a packet writes itself are not modelled.
- PacketManager.NewInstance / MessagingService.Dispatch: a registered supplier is assumed to return a fresh instance of its packet class, never null and never throwing. In Java, `newInstance` returns whatever `supplier.get()` returns (src/main/java/dev/sergivos/messaging/packets/PacketManager.java:111-118). A null from a registered supplier makes handleMessage log "Received an unknown packet" and drop the message (src/main/java/dev/sergivos/messaging/MessagingService.java:209-213). An exception from the supplier is caught and logged as an error handling the packet (MessagingService.java:218-219). So Dispatch's "dropped exactly when the id has no supplier" holds only under this assumption.
- Codec.ReadIntegerArray / Codec.ReadStringArray: allocating the array is modelled as failing only for a negative count. Java allocates `new int[len]` or `new String[length]` before reading any element (src/main/java/dev/sergivos/messaging/packets/PacketUtils.java:165-173, 227-234). A huge count such as 0x7FFFFFFF makes the JVM throw OutOfMemoryError there, an Error that no `catch (Exception)` handles. The model instead reads element by element and fails at the end of the buffer with the varint's RuntimeException.
- **Reflection in the earlier PacketManager.** `getConstructor().newInstance()` is abstracted as a per-class `instantiable` flag. A constructor that fails only on a later call is not modelled, because register has already tried it once.
- **UUID.randomUUID().** The server id is a parameter of both constructors.
- **ZStdCompression.** It is entirely commented out.
- **The host plugin layer.** Core, PlayerListener, the PacketListener classes and the later SimplePacket are left out.
- **Interface-only files.** Packet, Compression, MessagingCompression and PacketSupplier have no behaviour of their own. They appear through the concrete packet and compression models.

=== FILE: big_endian.dfy ===
/** Fixed-width big-endian integers, as Netty's writeInt/writeLong and readInt/readLong lay them out. */
module BigEndian {
  import opened JavaInt

  function Pow256(n: nat): (p: nat)
    ensures p >= 1
  {
    if n == 0 then 1 else 256 * Pow256(n - 1)
  }

  lemma Pow256Values()
    ensures Pow256(4) == TWO_32 && Pow256(8) == TWO_64
  {
    assert Pow256(2) == 0x1_0000;
    assert Pow256(4) == 0x1_0000 * 0x1_0000;
    assert Pow256(6) == 0x1_0000_0000_0000 by {
      assert Pow256(5) == 256 * Pow256(4);
    }
    assert Pow256(8) == 0x1_0000 * 0x1_0000_0000_0000 by {
      assert Pow256(7) == 256 * Pow256(6);
    }
  }

  /** The low `n` bytes of `x`, most significant first. */
  function Encode(x: nat, n: nat): (b: seq<Byte>)
    ensures |b| == n
  {
    if n == 0 then [] else Encode(x / 256, n - 1) + [x % 256]
  }

  /** The number whose bytes, most significant first, are `b`. */
  function Decode(b: seq<Byte>): (x: nat)
    ensures x < Pow256(|b|)
  {
    if |b| == 0 then 0 else Decode(b[..|b| - 1]) * 256 + b[|b| - 1]
  }

  lemma {:induction false} DecodeEncode(x: nat, n: nat)
    requires x < Pow256(n)
    ensures Decode(Encode(x, n)) == x
  {
    if n > 0 {
      DecodeEncode(x / 256, n - 1);
      assert Encode(x, n)[..n - 1] == Encode(x / 256, n - 1);
    }
  }

  lemma {:induction false} EncodeDecode(b: seq<Byte>)
    ensures Encode(Decode(b), |b|) == b
  {
    if |b| > 0 {
      var init := b[..|b| - 1];
      EncodeDecode(init);
      assert Decode(b) / 256 == Decode(init);
      assert b == init + [b[|b| - 1]];
    }
  }

  /** Byte strings of one width are equal when the numbers they spell are. */
  lemma DecodeInjective(a: seq<Byte>, b: seq<Byte>)
    requires |a| == |b| && Decode(a) == Decode(b)
    ensures a == b
  {
    EncodeDecode(a);
    EncodeDecode(b);
  }

  lemma ShiftByte(x: int, q: int, y: int, last: int)
    ensures (x * q + y) * 256 + last == x * (256 * q) + (y * 256 + last)
  {
  }

  /** Reading a concatenation: the first part supplies the high-order bytes. */
  lemma {:induction false} DecodeAppend(a: seq<Byte>, b: seq<Byte>)
    ensures Decode(a + b) == Decode(a) * Pow256(|b|) + Decode(b)
    decreases |b|
  {
    if |b| > 0 {
      var init := b[..|b| - 1];
      assert (a + b)[..|a + b| - 1] == a + init;
      DecodeAppend(a, init);
      var x, q, y, last := Decode(a), Pow256(|init|), Decode(init), b[|b| - 1];
      assert Decode(a + b) == (x * q + y) * 256 + last;
      ShiftByte(x, q, y, last);
    } else {
      assert a + b == a;
    }
  }
}

=== FILE: capacity_window.dfy ===
/**
 The adaptive initial-capacity window both MessagingService revisions keep:
 an int[150] of recorded frame sizes, a counter of how many are stored, and
 the capacity the next send buffer starts with. Calls are taken one at a
 time; the locks and the atomic counter only matter under concurrency.
 */
module CapacityWindow {
  import opened JavaInt
  import MathUtil

  /** `capacities.length` in the source. */
  const SLOTS: nat := 150
  /** `capacity = 2 * 1024`, the starting capacity. */
  const INITIAL_CAPACITY: Int32 := 2048
  /** The percentile addCapacity asks for. */
  const PERCENTILE: Int32 := 80

  /** `capacities`, `currentCapacity` and `capacity`. */
  datatype Window = Window(capacities: seq<int>, current: nat, capacity: Int32)

  /** The array keeps its 150 int slots and the counter never passes it. */
  predicate Valid(w: Window)
  {
    && |w.capacities| == SLOTS && w.current <= SLOTS
    && forall i :: 0 <= i < SLOTS ==> MIN_INT <= w.capacities[i] <= MAX_INT
  }

  /** A new service: a zeroed array, the counter at 0 and 2 KiB of capacity. */
  function New(): (w: Window)
    ensures Valid(w) && w.current == 0 && w.capacity == INITIAL_CAPACITY
    ensures forall i :: 0 <= i < SLOTS ==> w.capacities[i] == 0
  {
    Window(seq(SLOTS, _ => 0), 0, INITIAL_CAPACITY)
  }

  /**
   getInitialCapacity(): the capacity a send buffer is allocated with. It
   stays the same for every send recorded while a slot is still free.
   */
  function InitialCapacity(w: Window): (c: Int32)
    ensures Valid(w) && w.current < SLOTS ==> forall x: Int32 :: AddCapacity(w, x).capacity == c
  {
    w.capacity
  }

  /**
   addCapacity(newCapacity). While a slot is free the size is stored in it
   and the counter advances. Once all 150 are full, the call sorts the array
   in place, takes percentile(capacities, 80) as the new capacity and resets
   the counter, and its own size is not recorded. That percentile index is
   0 for 150 entries, so the capacity becomes the least stored size.
   */
  function AddCapacity(w: Window, newCapacity: Int32): (r: Window)
    requires Valid(w)
    ensures Valid(r)
    ensures w.current < SLOTS ==>
      && r.current == w.current + 1 && r.capacity == w.capacity
      && r.capacities[w.current] == newCapacity
      && forall i :: 0 <= i < SLOTS && i != w.current ==> r.capacities[i] == w.capacities[i]
    ensures w.current == SLOTS ==>
      && r.current == 0
      && MathUtil.Sorted(r.capacities) && multiset(r.capacities) == multiset(w.capacities)
      && r.capacity in w.capacities && forall v :: v in w.capacities ==> r.capacity <= v
  {
    if w.current < SLOTS then
      Window(w.capacities[w.current := newCapacity], w.current + 1, w.capacity)
    else
      var sorted := MathUtil.SortSpec(w.capacities);
      var k := MathUtil.PercentileIndex(|sorted|, PERCENTILE);
      MathUtil.PercentileIsMinimum(|sorted|, PERCENTILE);
      MathUtil.SortedHeadIsLeast(w.capacities);
      SortedIsInt32(w.capacities, sorted);
      Window(sorted, 0, sorted[k])
  }

  /** Rearranging 32-bit values gives 32-bit values. */
  lemma SortedIsInt32(s: seq<int>, t: seq<int>)
    requires forall i :: 0 <= i < |s| ==> MIN_INT <= s[i] <= MAX_INT
    requires multiset(t) == multiset(s)
    ensures forall i :: 0 <= i < |t| ==> MIN_INT <= t[i] <= MAX_INT
  {
    forall i | 0 <= i < |t|
      ensures MIN_INT <= t[i] <= MAX_INT
    {
      assert t[i] in multiset(s);
      var j :| 0 <= j < |s| && s[j] == t[i];
    }
  }

  /** The window after addCapacity has run on each of `sizes` in turn. */
  function Feed(w: Window, sizes: seq<Int32>): (r: Window)
    requires Valid(w)
    ensures Valid(r)
    decreases |sizes|
  {
    if sizes == [] then w else Feed(AddCapacity(w, sizes[0]), sizes[1..])
  }

  /** Feeding two runs of sizes is feeding the first, then the second. */
  lemma {:induction false} FeedAppend(w: Window, a: seq<Int32>, b: seq<Int32>)
    requires Valid(w)
    ensures Feed(w, a + b) == Feed(Feed(w, a), b)
    decreases |a|
  {
    if a != [] {
      assert (a + b)[1..] == a[1..] + b;
      FeedAppend(AddCapacity(w, a[0]), a[1..], b);
    } else {
      assert a + b == b;
    }
  }

  /**
   While slots remain, sizes are stored in order from the counter on, the
   counter advances by one per size, and neither the capacity nor any other
   slot changes.
   */
  lemma {:induction false} StoresInOrder(w: Window, sizes: seq<Int32>)
    requires Valid(w) && w.current + |sizes| <= SLOTS
    ensures Feed(w, sizes).current == w.current + |sizes|
    ensures Feed(w, sizes).capacity == w.capacity
    ensures forall j :: 0 <= j < |sizes| ==> Feed(w, sizes).capacities[w.current + j] == sizes[j]
    ensures forall i :: 0 <= i < SLOTS && !(w.current <= i < w.current + |sizes|) ==>
      Feed(w, sizes).capacities[i] == w.capacities[i]
    decreases |sizes|
  {
    if sizes != [] {
      var w' := AddCapacity(w, sizes[0]);
      StoresInOrder(w', sizes[1..]);
      var r := Feed(w', sizes[1..]);
      assert r == Feed(w, sizes);
      forall j | 0 <= j < |sizes|
        ensures r.capacities[w.current + j] == sizes[j]
      {
        if j > 0 {
          assert sizes[1..][j - 1] == sizes[j];
        }
      }
      forall i | 0 <= i < SLOTS && !(w.current <= i < w.current + |sizes|)
        ensures r.capacities[i] == w.capacities[i]
      {
        assert !(w'.current <= i < w'.current + |sizes[1..]|);
      }
    }
  }

  /**
   A new service allocates 2048-byte buffers for its first 150 sends and
   keeps their sizes, in order, in slots 0 to 149.
   */
  lemma FirstSamplesStored(sizes: seq<Int32>)
    requires |sizes| <= SLOTS
    ensures InitialCapacity(Feed(New(), sizes)) == INITIAL_CAPACITY
    ensures Feed(New(), sizes).current == |sizes|
    ensures Feed(New(), sizes).capacities[..|sizes|] == sizes
    ensures forall i :: |sizes| <= i < SLOTS ==> Feed(New(), sizes).capacities[i] == 0
  {
    StoresInOrder(New(), sizes);
  }

  /**
   Starting from a reset counter, 151 calls store the first 150 sizes over
   whatever the array held, and the 151st call replaces the capacity with
   the least of those 150 sizes, leaves them sorted in the array, resets the
   counter and drops its own size.
   */
  lemma {:induction false} RecomputeOnCall151(w: Window, sizes: seq<Int32>)
    requires Valid(w) && w.current == 0 && |sizes| == SLOTS + 1
    ensures var r := Feed(w, sizes);
      && r.current == 0
      && r.capacities == MathUtil.SortSpec(sizes[..SLOTS])
      && r.capacity in sizes[..SLOTS]
      && forall v :: v in sizes[..SLOTS] ==> r.capacity <= v
  {
    var first: seq<int> := sizes[..SLOTS];
    assert sizes == sizes[..SLOTS] + [sizes[SLOTS]];
    FeedAppend(w, sizes[..SLOTS], [sizes[SLOTS]]);
    var full := Feed(w, sizes[..SLOTS]);
    StoresInOrder(w, sizes[..SLOTS]);
    assert full.capacities == first;
    var r := AddCapacity(full, sizes[SLOTS]);
    assert Feed(full, [sizes[SLOTS]]) == Feed(r, []);
    MathUtil.SortedUnique(r.capacities, MathUtil.SortSpec(first));
  }

  /** For a new service the 151st call recomputes from exactly the first 150 sizes. */
  lemma NewServiceCall151(sizes: seq<Int32>)
    requires |sizes| == SLOTS + 1
    ensures InitialCapacity(Feed(New(), sizes)) in sizes[..SLOTS]
    ensures forall v :: v in sizes[..SLOTS] ==> InitialCapacity(Feed(New(), sizes)) <= v
    ensures Feed(New(), sizes).current == 0
  {
    RecomputeOnCall151(New(), sizes);
  }
}

=== FILE: codec.dfy ===
/**
 PacketUtils: the length-prefixed primitives packets are built from. Every
 reader takes the buffer's readable region as the written bytes `s` (up to
 the writer index) and the reader index `pos`, and yields the value with the
 new reader index, or the exception with the reader index at which it is
 thrown. Every writer yields the bytes it appends.
 */
module Codec {
  import opened JavaInt
  import opened CodecErrors
  import VarInt
  import Utf8
  import BigEndian

  /** DEFAULT_MAX_STRING_SIZE: the cap of readString(buf) and readByteArray(buf). */
  const DEFAULT_MAX_STRING_SIZE: Int32 := 65536

  /**
   The bytes `w` sit in `s` starting at index `pos`, stated byte by byte so
   that a proof sees the slice form only where it asks for it (`AtSlice`).
   */
  predicate At(s: seq<Byte>, pos: nat, w: seq<Byte>)
    decreases |w|
  {
    if w == [] then pos <= |s| else pos < |s| && s[pos] == w[0] && At(s, pos + 1, w[1..])
  }

  lemma {:induction false} AtSlice(s: seq<Byte>, pos: nat, w: seq<Byte>)
    ensures At(s, pos, w) <==> pos + |w| <= |s| && s[pos .. pos + |w|] == w
    decreases |w|
  {
    if w != [] {
      AtSlice(s, pos + 1, w[1..]);
      if pos + |w| <= |s| {
        assert s[pos .. pos + |w|] == [s[pos]] + s[pos + 1 .. pos + 1 + |w[1..]|];
        assert w == [w[0]] + w[1..];
      }
    }
  }

  /** Bytes written one after another sit one after another. */
  lemma {:induction false} AtSplit(s: seq<Byte>, pos: nat, a: seq<Byte>, b: seq<Byte>)
    requires At(s, pos, a + b)
    ensures At(s, pos, a) && At(s, pos + |a|, b)
  {
    AtSlice(s, pos, a + b);
    AtSlice(s, pos, a);
    AtSlice(s, pos + |a|, b);
    assert s[pos .. pos + |a|] == (a + b)[..|a|];
    assert s[pos + |a| .. pos + |a| + |b|] == (a + b)[|a|..];
  }

  /** A varint written at `pos` reads back, leaving the reader index past it. */
  lemma {:induction false} VarIntAt(s: seq<Byte>, pos: nat, n: Int32)
    requires n != MIN_INT && At(s, pos, VarInt.Write(n))
    ensures VarInt.Read(s, pos) == Done(n, pos + |VarInt.Write(n)|)
  {
    AtSlice(s, pos, VarInt.Write(n));
    VarInt.RoundTrip(s, pos, n);
  }

  // ------------------------------------------------------------------ runs

  /**
   A reader over the written bytes `s` with `|s| == size`, as a function of
   the reader index: defined up to `size`, and never moving the index
   backwards or past `size`.
   */
  ghost predicate ReaderWithin<T>(read: nat --> Read<T>, size: nat)
  {
    forall p: nat :: p <= size ==>
      && read.requires(p)
      && (read(p).Done? ==> p <= read(p).next <= size)
      && (read(p).Threw? ==> p <= read(p).at <= size)
  }

  /**
   The array readers' loop: `n` values read one after another, the first
   exception ending the loop.
   */
  function Repeat<T>(read: nat --> Read<T>, size: nat, pos: nat, n: nat): (r: Read<seq<T>>)
    requires pos <= size && ReaderWithin(read, size)
    ensures r.Done? ==> |r.value| == n && pos <= r.next <= size
    ensures r.Threw? ==> pos <= r.at <= size
    decreases n
  {
    if n == 0 then Done([], pos)
    else
      match read(pos)
      case Threw(e, at) => Threw(e, at)
      case Done(x, p) =>
        match Repeat(read, size, p, n - 1)
        case Threw(e, at) => Threw(e, at)
        case Done(xs, q) => Done([x] + xs, q)
  }

  /** The array writers' loop: the values written one after another. */
  function Concat<T>(write: T --> seq<Byte>, a: seq<T>): seq<Byte>
    requires forall i :: 0 <= i < |a| ==> write.requires(a[i])
  {
    if a == [] then [] else write(a[0]) + Concat(write, a[1..])
  }

  /**
   When each value reads back from where the one before it ended, the loop
   reads them all back and stops where the last one ended.
   */
  lemma {:induction false} RepeatReadsBack<T>(read: nat --> Read<T>, size: nat, a: seq<T>, ps: seq<nat>)
    requires ReaderWithin(read, size)
    requires |ps| == |a| + 1 && ps[0] <= size
    requires forall i :: 0 <= i < |a| ==> ps[i] <= size && read(ps[i]) == Done(a[i], ps[i + 1])
    ensures Repeat(read, size, ps[0], |a|) == Done(a, ps[|a|])
    decreases |a|
  {
    if a != [] {
      assert ps[1] <= size by {
        assert read(ps[0]) == Done(a[0], ps[1]);
      }
      RepeatReadsBack(read, size, a[1..], ps[1..]);
      assert [a[0]] + a[1..] == a;
    }
  }

  /**
   The values of a concatenation sit one after another: `ps[i]` is where
   the `i`-th starts, and the last entry is where the run ends.
   */
  lemma {:induction false} ConcatAt<T>(write: T --> seq<Byte>, s: seq<Byte>, pos: nat, a: seq<T>) returns (ps: seq<nat>)
    requires forall i :: 0 <= i < |a| ==> write.requires(a[i])
    requires At(s, pos, Concat(write, a))
    ensures |ps| == |a| + 1 && ps[0] == pos && ps[|a|] == pos + |Concat(write, a)|
    ensures forall i :: 0 <= i < |a| ==> At(s, ps[i], write(a[i])) && ps[i + 1] == ps[i] + |write(a[i])|
    decreases |a|
  {
    if a == [] {
      ps := [pos];
    } else {
      AtSplit(s, pos, write(a[0]), Concat(write, a[1..]));
      var rest := ConcatAt(write, s, pos + |write(a[0])|, a[1..]);
      ps := [pos] + rest;
      forall i | 1 <= i < |a|
        ensures At(s, ps[i], write(a[i])) && ps[i + 1] == ps[i] + |write(a[i])|
      {
        assert a[i] == a[1..][i - 1];
      }
    }
  }

  // ---------------------------------------------------------------- strings

  /** A string whose UTF-8 length fits the `int` that prefixes it. */
  predicate Writable(str: string)
  {
    |Utf8.Encode(str)| <= MAX_INT
  }

  /** writeString(buf, str): the UTF-8 byte count as a varint, then the bytes. */
  function WriteString(str: string): (w: seq<Byte>)
    requires Writable(str)
    ensures |w| == |VarInt.Write(|Utf8.Encode(str)|)| + |Utf8.Encode(str)|
  {
    VarInt.Write(|Utf8.Encode(str)|) + Utf8.Encode(str)
  }

  /**
   readString(buf, cap). After the varint length it checks, in this order and
   before touching the string's bytes: the length is not negative, it is at
   most `cap * 4` (an `int` product, so it wraps for caps above 2^29 - 1),
   and that many bytes are readable. It then decodes and skips the bytes,
   and only then rejects a string longer than `cap` UTF-16 units.
   */
  function ReadStringCapped(rev: Revision, s: seq<Byte>, pos: nat, cap: Int32): (r: Read<string>)
    requires pos <= |s|
    ensures r.Done? ==> pos < r.next <= |s| && Utf8.Utf16Length(r.value) <= cap
    ensures r.Threw? ==> pos <= r.at <= |s|
    ensures r.Threw? ==> r.error.thrown == RuntimeException || r.error.thrown == FrameCheck(rev)
  {
    match VarInt.Read(s, pos)
    case Threw(e, at) => Threw(e, at)
    case Done(length, p) => StringBody(rev, s, p, length, cap)
  }

  /** What readString does once it has read the length prefix, with the reader index at `p`. */
  function StringBody(rev: Revision, s: seq<Byte>, p: nat, length: Int32, cap: Int32): (r: Read<string>)
    requires p <= |s|
    ensures r.Done? ==> p <= r.next <= |s| && Utf8.Utf16Length(r.value) <= cap
    ensures r.Threw? ==> p <= r.at <= |s| && r.error.thrown == FrameCheck(rev)
  {
    if length < 0 then Threw(CodecError(FrameCheck(rev), NegativeLength), p)
    else if length > Wrap32(cap * 4) then Threw(CodecError(FrameCheck(rev), LengthOverCap), p)
    else if |s| - p < length then Threw(CodecError(FrameCheck(rev), NotEnoughReadable), p)
    else
      var str := Utf8.Decode(s[p .. p + length]);
      if Utf8.Utf16Length(str) > cap then Threw(CodecError(FrameCheck(rev), DecodedOverCap), p + length)
      else Done(str, p + length)
  }

  /**
   readString(buf): the default cap of 65536 characters. A failure is the
   varint's RuntimeException or one of the revision's frame checks.
   */
  function ReadString(rev: Revision, s: seq<Byte>, pos: nat): (r: Read<string>)
    requires pos <= |s|
    ensures r.Done? ==> pos < r.next <= |s| && Utf8.Utf16Length(r.value) <= DEFAULT_MAX_STRING_SIZE
    ensures r.Threw? ==> pos <= r.at <= |s|
    ensures r.Threw? ==> r.error.thrown == RuntimeException || r.error.thrown == FrameCheck(rev)
  {
    ReadStringCapped(rev, s, pos, DEFAULT_MAX_STRING_SIZE)
  }

  /** The three checks readString makes before it reads a string's bytes. */
  predicate StringPrecheckFails(length: Int32, cap: Int32, readable: int)
  {
    length < 0 || length > Wrap32(cap * 4) || readable < length
  }

  /**
   readString fails one of its pre-checks exactly when the length prefix
   is negative, above `cap * 4` or above the readable bytes; the exception
   (RuntimeException from checkFrame, IllegalStateException from checkState)
   leaves the reader index just past the prefix. Otherwise it consumes the
   prefix and exactly `length` bytes, whether or not the decoded string then
   passes the cap.
   */
  lemma {:induction false} ReadStringChecks(rev: Revision, s: seq<Byte>, pos: nat, cap: Int32)
    requires pos <= |s| && VarInt.Read(s, pos).Done?
    ensures var length, p := VarInt.Read(s, pos).value, VarInt.Read(s, pos).next;
      var r := ReadStringCapped(rev, s, pos, cap);
      && (StringPrecheckFails(length, cap, |s| - p) <==>
            (r.Threw? && r.error.reason in {NegativeLength, LengthOverCap, NotEnoughReadable}))
      && (StringPrecheckFails(length, cap, |s| - p) ==> r.at == p && r.error.thrown == FrameCheck(rev))
      && (!StringPrecheckFails(length, cap, |s| - p) ==>
            (r.Done? && r.next == p + length && r.value == Utf8.Decode(s[p .. p + length]))
            || (r.Threw? && r.at == p + length && r.error == CodecError(FrameCheck(rev), DecodedOverCap)))
  {
  }

  /**
   A string of at most `cap` UTF-16 units reads back as written, and the
   reader index ends just past it; `cap` must not exceed 2^29 - 1, above
   which `cap * 4` wraps.
   */
  lemma {:induction false} StringRoundTrip(rev: Revision, s: seq<Byte>, pos: nat, str: string, cap: Int32)
    requires 0 <= cap <= 0x1FFF_FFFF && Utf8.Utf16Length(str) <= cap
    requires Writable(str) && At(s, pos, WriteString(str))
    ensures ReadStringCapped(rev, s, pos, cap) == Done(str, pos + |WriteString(str)|)
  {
    var n := |Utf8.Encode(str)|;
    AtSplit(s, pos, VarInt.Write(n), Utf8.Encode(str));
    VarIntAt(s, pos, n);
    StringAccepted(rev, s, pos, cap, pos + |VarInt.Write(n)|, str);
  }

  /** Once the prefix has given the string's byte count, its bytes decode back to it. */
  lemma {:induction false} StringAccepted(rev: Revision, s: seq<Byte>, pos: nat, cap: Int32, p: nat, str: string)
    requires pos <= |s| && Writable(str)
    requires 0 <= cap <= 0x1FFF_FFFF && Utf8.Utf16Length(str) <= cap
    requires VarInt.Read(s, pos) == Done(|Utf8.Encode(str)|, p)
    requires At(s, p, Utf8.Encode(str))
    ensures ReadStringCapped(rev, s, pos, cap) == Done(str, p + |Utf8.Encode(str)|)
  {
    AtSlice(s, p, Utf8.Encode(str));
    ModSmall(cap * 4, TWO_32);
    Utf8.DecodeEncode(str);
  }

  /** readString(buf) reads back every string of at most 65536 UTF-16 units. */
  lemma {:induction false} DefaultStringRoundTrip(rev: Revision, s: seq<Byte>, pos: nat, str: string)
    requires Utf8.Utf16Length(str) <= DEFAULT_MAX_STRING_SIZE
    requires Writable(str) && At(s, pos, WriteString(str))
    ensures ReadString(rev, s, pos) == Done(str, pos + |WriteString(str)|)
  {
    StringRoundTrip(rev, s, pos, str, DEFAULT_MAX_STRING_SIZE);
  }

  /** Short strings are always writable: three bytes per UTF-16 unit at most. */
  lemma {:induction false} WithinDefaultCapIsWritable(str: string)
    requires Utf8.Utf16Length(str) <= DEFAULT_MAX_STRING_SIZE
    ensures Writable(str)
  {
  }

  /**
   With a cap of 2^30, `cap * 4` wraps to 0, so readString rejects even a
   one-byte string as over the cap.
   */
  lemma {:induction false} WrappedCapRejects(rev: Revision)
    ensures ReadStringCapped(rev, WriteString("a"), 0, 0x4000_0000)
         == Threw(CodecError(FrameCheck(rev), LengthOverCap), 1)
  {
    var s := WriteString("a");
    assert Utf8.Encode("a") == [0x61];
    VarIntAt(s, 0, 1);
  }

  // ------------------------------------------------------------ byte arrays

  /** writeByteArray(buf, array): the length as a varint, then the bytes. */
  function WriteByteArray(a: seq<Byte>): (w: seq<Byte>)
    requires |a| <= MAX_INT
    ensures |w| == |VarInt.Write(|a|)| + |a|
  {
    VarInt.Write(|a|) + a
  }

  /**
   readByteArray(buf, cap): a negative length, one above `cap` or one above
   the readable bytes is rejected after the prefix; otherwise exactly the
   next `length` bytes are copied out.
   */
  function ReadByteArrayCapped(rev: Revision, s: seq<Byte>, pos: nat, cap: Int32): (r: Read<seq<Byte>>)
    requires pos <= |s|
    ensures r.Done? ==> pos < r.next <= |s| && |r.value| <= cap
    ensures r.Done? ==> pos + |r.value| < r.next && r.value == s[r.next - |r.value| .. r.next]
    ensures r.Threw? ==> pos <= r.at <= |s|
    ensures r.Threw? ==> r.error.thrown == RuntimeException || r.error.thrown == FrameCheck(rev)
  {
    match VarInt.Read(s, pos)
    case Threw(e, at) => Threw(e, at)
    case Done(length, p) =>
      if length < 0 then Threw(CodecError(FrameCheck(rev), NegativeLength), p)
      else if length > cap then Threw(CodecError(FrameCheck(rev), LengthOverCap), p)
      else if |s| - p < length then Threw(CodecError(FrameCheck(rev), NotEnoughReadable), p)
      else Done(s[p .. p + length], p + length)
  }

  /**
   readByteArray(buf): the default cap of 65536 bytes, returned as the bytes
   that end at the new reader index.
   */
  function ReadByteArray(rev: Revision, s: seq<Byte>, pos: nat): (r: Read<seq<Byte>>)
    requires pos <= |s|
    ensures r.Done? ==> |r.value| <= DEFAULT_MAX_STRING_SIZE && pos + |r.value| < r.next <= |s|
    ensures r.Done? ==> r.value == s[r.next - |r.value| .. r.next]
    ensures r.Threw? ==> pos <= r.at <= |s|
    ensures r.Threw? ==> r.error.thrown == RuntimeException || r.error.thrown == FrameCheck(rev)
  {
    ReadByteArrayCapped(rev, s, pos, DEFAULT_MAX_STRING_SIZE)
  }

  /**
   readByteArray fails exactly when the length prefix is negative, above the
   cap or above the readable bytes, each time just past the prefix and with
   the revision's frame-check exception; otherwise it consumes exactly
   `length` bytes after the prefix.
   */
  lemma {:induction false} ByteArrayChecks(rev: Revision, s: seq<Byte>, pos: nat, cap: Int32)
    requires pos <= |s| && VarInt.Read(s, pos).Done?
    ensures var length, p := VarInt.Read(s, pos).value, VarInt.Read(s, pos).next;
      var r := ReadByteArrayCapped(rev, s, pos, cap);
      && (r.Threw? <==> length < 0 || length > cap || |s| - p < length)
      && (r.Threw? ==> r.at == p && r.error.thrown == FrameCheck(rev))
      && (r.Done? ==> r.next == p + length)
  {
  }

  /** An array no longer than the cap reads back as written. */
  lemma {:induction false} ByteArrayRoundTrip(rev: Revision, s: seq<Byte>, pos: nat, a: seq<Byte>, cap: Int32)
    requires |a| <= cap && At(s, pos, WriteByteArray(a))
    ensures ReadByteArrayCapped(rev, s, pos, cap) == Done(a, pos + |WriteByteArray(a)|)
  {
    AtSplit(s, pos, VarInt.Write(|a|), a);
    VarIntAt(s, pos, |a|);
    AtSlice(s, pos + |VarInt.Write(|a|)|, a);
  }

  /** An array longer than the cap is rejected, just past its length prefix. */
  lemma {:induction false} ByteArrayOverCapRejected(rev: Revision, s: seq<Byte>, pos: nat, a: seq<Byte>, cap: Int32)
    requires cap < |a| <= MAX_INT && At(s, pos, WriteByteArray(a))
    ensures ReadByteArrayCapped(rev, s, pos, cap)
         == Threw(CodecError(FrameCheck(rev), LengthOverCap), pos + |VarInt.Write(|a|)|)
  {
    AtSplit(s, pos, VarInt.Write(|a|), a);
    VarIntAt(s, pos, |a|);
  }

  // --------------------------------------------------------- integer arrays

  /** readVarInt as a reader over the written bytes `s`. */
  function VarIntReader(s: seq<Byte>): (read: nat --> Read<Int32>)
    ensures ReaderWithin(read, |s|)
  {
    (p: nat) requires p <= |s| => VarInt.Read(s, p)
  }

  /** `n` varints read one after another. */
  function ReadVarInts(s: seq<Byte>, pos: nat, n: nat): (r: Read<seq<Int32>>)
    requires pos <= |s|
    ensures r.Done? ==> |r.value| == n && pos <= r.next <= |s|
    ensures r.Threw? ==> pos <= r.at <= |s|
  {
    Repeat(VarIntReader(s), |s|, pos, n)
  }

  /**
   readIntegerArray(buf): a varint count, rejected by checkArgument when
   negative, then that many varints.
   */
  function ReadIntegerArray(s: seq<Byte>, pos: nat): (r: Read<seq<Int32>>)
    requires pos <= |s|
    ensures r.Done? ==> pos < r.next <= |s|
    ensures r.Threw? ==> pos <= r.at <= |s|
    ensures VarInt.Read(s, pos).Done? && VarInt.Read(s, pos).value < 0 ==>
      r == Threw(CodecError(IllegalArgumentException, NegativeLength), VarInt.Read(s, pos).next)
  {
    match VarInt.Read(s, pos)
    case Threw(e, at) => Threw(e, at)
    case Done(n, p) =>
      if n < 0 then Threw(CodecError(IllegalArgumentException, NegativeLength), p)
      else ReadVarInts(s, p, n)
  }

  /** The varints of `a`, one after another. */
  function WriteVarInts(a: seq<Int32>): seq<Byte>
  {
    Concat(VarInt.Write, a)
  }

  /**
   The layout readIntegerArray expects: the count as a varint, then the
   elements as varints. PacketUtils has no writer for it.
   */
  function IntegerArrayLayout(a: seq<Int32>): seq<Byte>
    requires |a| <= MAX_INT
  {
    VarInt.Write(|a|) + WriteVarInts(a)
  }

  /** Varints written one after another read back one after another. */
  lemma {:induction false} VarIntsRoundTrip(s: seq<Byte>, pos: nat, a: seq<Int32>)
    requires forall i :: 0 <= i < |a| ==> a[i] != MIN_INT
    requires At(s, pos, WriteVarInts(a))
    ensures ReadVarInts(s, pos, |a|) == Done(a, pos + |WriteVarInts(a)|)
  {
    var ps := ConcatAt(VarInt.Write, s, pos, a);
    var read := VarIntReader(s);
    forall i | 0 <= i < |a|
      ensures ps[i] <= |s| && read(ps[i]) == Done(a[i], ps[i + 1])
    {
      VarIntAt(s, ps[i], a[i]);
    }
    RepeatReadsBack(read, |s|, a, ps);
  }

  /**
   readIntegerArray reads back the count-prefixed varints of any array
   without Integer.MIN_VALUE in it.
   */
  lemma {:induction false} IntegerArrayRoundTrip(s: seq<Byte>, pos: nat, a: seq<Int32>)
    requires |a| <= MAX_INT && forall i :: 0 <= i < |a| ==> a[i] != MIN_INT
    requires At(s, pos, IntegerArrayLayout(a))
    ensures ReadIntegerArray(s, pos) == Done(a, pos + |IntegerArrayLayout(a)|)
  {
    AtSplit(s, pos, VarInt.Write(|a|), WriteVarInts(a));
    VarIntAt(s, pos, |a|);
    VarIntsRoundTrip(s, pos + |VarInt.Write(|a|)|, a);
  }

  // ------------------------------------------------------------------ UUIDs

  /** java.util.UUID: its most and least significant 64 bits. */
  datatype Uuid = Uuid(msb: Int64, lsb: Int64)

  /** writeLong: eight bytes, big-endian. */
  function WriteLong(x: Int64): (w: seq<Byte>)
    ensures |w| == 8
  {
    BigEndian.Encode(Unsigned64(x), 8)
  }

  /** writeInt: four bytes, big-endian. */
  function WriteInt(x: Int32): (w: seq<Byte>)
    ensures |w| == 4
  {
    BigEndian.Encode(Unsigned32(x), 4)
  }

  /** readLong: fails without moving the reader index when fewer than 8 bytes are readable. */
  function ReadLong(s: seq<Byte>, pos: nat): (r: Read<Int64>)
    requires pos <= |s|
    ensures r.Done? <==> |s| - pos >= 8
    ensures r.Done? ==> r.next == pos + 8
    ensures r.Threw? ==> r == Threw(CodecError(IndexOutOfBoundsException, Underflow), pos)
  {
    if |s| - pos < 8 then Threw(CodecError(IndexOutOfBoundsException, Underflow), pos)
    else
      BigEndian.Pow256Values();
      Done(Signed64(BigEndian.Decode(s[pos .. pos + 8])), pos + 8)
  }

  /** readInt: fails without moving the reader index when fewer than 4 bytes are readable. */
  function ReadInt(s: seq<Byte>, pos: nat): (r: Read<Int32>)
    requires pos <= |s|
    ensures r.Done? <==> |s| - pos >= 4
    ensures r.Done? ==> r.next == pos + 4
    ensures r.Threw? ==> r == Threw(CodecError(IndexOutOfBoundsException, Underflow), pos)
  {
    if |s| - pos < 4 then Threw(CodecError(IndexOutOfBoundsException, Underflow), pos)
    else
      BigEndian.Pow256Values();
      Done(Signed32(BigEndian.Decode(s[pos .. pos + 4])), pos + 4)
  }

  lemma {:induction false} LongRoundTrip(s: seq<Byte>, pos: nat, x: Int64)
    requires At(s, pos, WriteLong(x))
    ensures ReadLong(s, pos) == Done(x, pos + 8)
  {
    AtSlice(s, pos, WriteLong(x));
    BigEndian.Pow256Values();
    BigEndian.DecodeEncode(Unsigned64(x), 8);
    SignedUnsigned64(x);
  }

  lemma {:induction false} IntRoundTrip(s: seq<Byte>, pos: nat, x: Int32)
    requires At(s, pos, WriteInt(x))
    ensures ReadInt(s, pos) == Done(x, pos + 4)
  {
    AtSlice(s, pos, WriteInt(x));
    BigEndian.Pow256Values();
    BigEndian.DecodeEncode(Unsigned32(x), 4);
    SignedUnsigned32(x);
  }

  /**
   writeUuid: the most significant half, then the least, as longs; each
   half's eight bytes are its two's-complement bits, big-endian.
   */
  function WriteUuid(u: Uuid): (w: seq<Byte>)
    ensures |w| == 16
    ensures BigEndian.Decode(w[..8]) == Unsigned64(u.msb) && BigEndian.Decode(w[8..]) == Unsigned64(u.lsb)
  {
    BigEndian.Pow256Values();
    BigEndian.DecodeEncode(Unsigned64(u.msb), 8);
    BigEndian.DecodeEncode(Unsigned64(u.lsb), 8);
    WriteLong(u.msb) + WriteLong(u.lsb)
  }

  /**
   readUuid: two readLong calls. A short buffer fails with the reader index
   past the first long when that one was readable.
   */
  function ReadUuid(s: seq<Byte>, pos: nat): (r: Read<Uuid>)
    requires pos <= |s|
    ensures r.Done? <==> |s| - pos >= 16
    ensures r.Done? ==> r.next == pos + 16
    ensures r.Threw? ==> r.error == CodecError(IndexOutOfBoundsException, Underflow)
                         && r.at == (if |s| - pos < 8 then pos else pos + 8)
  {
    match ReadLong(s, pos)
    case Threw(e, at) => Threw(e, at)
    case Done(msb, p) =>
      match ReadLong(s, p)
      case Threw(e, at) => Threw(e, at)
      case Done(lsb, q) => Done(Uuid(msb, lsb), q)
  }

  /** The UUID reads back as written, from exactly 16 bytes. */
  lemma {:induction false} UuidRoundTrip(s: seq<Byte>, pos: nat, u: Uuid)
    requires At(s, pos, WriteUuid(u))
    ensures ReadUuid(s, pos) == Done(u, pos + 16)
  {
    AtSplit(s, pos, WriteLong(u.msb), WriteLong(u.lsb));
    LongRoundTrip(s, pos, u.msb);
    LongRoundTrip(s, pos + 8, u.lsb);
  }

  /**
   The high and low `int` halves of a long joined as readUuidIntArray does:
   `(long) hi << 32` is `hi * 2^32` (a sign-extended 32-bit value shifted
   left cannot overflow), `(long) lo & 0xFFFFFFFFL` is the unsigned value of
   `lo`, and OR-ing the two, whose bits are disjoint, adds them.
   */
  function JoinHalves(hi: Int32, lo: Int32): Int64
  {
    hi * TWO_32 + Unsigned32(lo)
  }

  /**
   writeUuidIntArray: four writeInt calls, `(int) (bits >> 32)` and
   `(int) bits` for each half. `>>` on a long is floor division by 2^32,
   which is Dafny's `/` for a positive divisor; the `(int)` cast keeps the
   low 32 bits.
   */
  function WriteUuidIntArray(u: Uuid): (w: seq<Byte>)
    ensures |w| == 16
    ensures BigEndian.Decode(w[..8]) == Unsigned64(u.msb) && BigEndian.Decode(w[8..]) == Unsigned64(u.lsb)
  {
    LongAsTwoInts(u.msb);
    LongAsTwoInts(u.lsb);
    BigEndian.Pow256Values();
    BigEndian.DecodeEncode(Unsigned64(u.msb), 8);
    BigEndian.DecodeEncode(Unsigned64(u.lsb), 8);
    var msb := WriteInt(Wrap32(u.msb / TWO_32)) + WriteInt(Wrap32(u.msb));
    var lsb := WriteInt(Wrap32(u.lsb / TWO_32)) + WriteInt(Wrap32(u.lsb));
    assert (msb + lsb)[..8] == msb && (msb + lsb)[8..] == lsb;
    msb + lsb
  }

  /**
   readUuidIntArray: four readInt calls, joined pairwise into the two
   halves. A short buffer fails after the whole `int`s it holds.
   */
  function ReadUuidIntArray(s: seq<Byte>, pos: nat): (r: Read<Uuid>)
    requires pos <= |s|
    ensures r.Done? <==> |s| - pos >= 16
    ensures r.Done? ==> r.next == pos + 16
    ensures r.Threw? ==> r.error == CodecError(IndexOutOfBoundsException, Underflow)
                         && r.at == pos + (|s| - pos) / 4 * 4
  {
    match ReadInt(s, pos)
    case Threw(e, at) => Threw(e, at)
    case Done(msbHigh, p1) =>
      match ReadInt(s, p1)
      case Threw(e, at) => Threw(e, at)
      case Done(msbLow, p2) =>
        match ReadInt(s, p2)
        case Threw(e, at) => Threw(e, at)
        case Done(lsbHigh, p3) =>
          match ReadInt(s, p3)
          case Threw(e, at) => Threw(e, at)
          case Done(lsbLow, p4) => Done(Uuid(JoinHalves(msbHigh, msbLow), JoinHalves(lsbHigh, lsbLow)), p4)
  }

  /**
   The 64 bits of a long are its high `int`, `(int) (x >> 32)`, above its
   low `int`, `(int) x`, both read unsigned.
   */
  lemma {:induction false} LongHalves(x: Int64)
    ensures Unsigned64(x) == Unsigned32(Wrap32(x / TWO_32)) * TWO_32 + Unsigned32(Wrap32(x))
  {
    var q, r := x / TWO_32, x % TWO_32;
    assert x == q * TWO_32 + r;
    assert -0x8000_0000 <= q < 0x8000_0000;
    if x >= 0 {
      ModSmall(q, TWO_32);
    } else {
      assert (q + TWO_32) % TWO_32 == q % TWO_32;
      ModSmall(q + TWO_32, TWO_32);
      assert (q + TWO_32) * TWO_32 == q * TWO_32 + TWO_64;
    }
  }

  /** The two `int` writes of a long produce the same bytes as one writeLong. */
  lemma {:induction false} LongAsTwoInts(x: Int64)
    ensures WriteInt(Wrap32(x / TWO_32)) + WriteInt(Wrap32(x)) == WriteLong(x)
  {
    BigEndian.Pow256Values();
    var hi, lo := Unsigned32(Wrap32(x / TWO_32)), Unsigned32(Wrap32(x));
    var a, b := BigEndian.Encode(hi, 4), BigEndian.Encode(lo, 4);
    BigEndian.DecodeEncode(hi, 4);
    BigEndian.DecodeEncode(lo, 4);
    BigEndian.DecodeAppend(a, b);
    LongHalves(x);
    BigEndian.DecodeEncode(Unsigned64(x), 8);
    BigEndian.DecodeInjective(a + b, WriteLong(x));
  }

  /**
   writeUuidIntArray writes the same 16 bytes as writeUuid: the high and low
   `int` of the most significant half, then of the least.
   */
  lemma {:induction false} UuidLayoutsAgree(u: Uuid)
    ensures WriteUuidIntArray(u) == WriteUuid(u)
  {
    LongAsTwoInts(u.msb);
    LongAsTwoInts(u.lsb);
  }

  /** Reading a long's eight bytes as two `int`s and joining them gives the long. */
  lemma {:induction false} LongFromTwoInts(s: seq<Byte>, pos: nat)
    requires pos + 8 <= |s|
    ensures ReadLong(s, pos).value == JoinHalves(ReadInt(s, pos).value, ReadInt(s, pos + 4).value)
  {
    BigEndian.Pow256Values();
    var hi, lo := s[pos .. pos + 4], s[pos + 4 .. pos + 8];
    assert s[pos .. pos + 8] == hi + lo;
    BigEndian.DecodeAppend(hi, lo);
    var h := BigEndian.Decode(hi);
    assert Unsigned32(Signed32(BigEndian.Decode(lo))) == BigEndian.Decode(lo);
    if h > MAX_INT {
      assert Signed32(h) == h - TWO_32;
    }
  }

  /**
   The two UUID readers are interchangeable: both succeed exactly when 16
   bytes are readable, with the same UUID and reader index.
   */
  lemma {:induction false} UuidReadersAgree(s: seq<Byte>, pos: nat)
    requires pos <= |s|
    ensures ReadUuid(s, pos).Done? <==> ReadUuidIntArray(s, pos).Done?
    ensures ReadUuid(s, pos).Done? ==> ReadUuid(s, pos) == ReadUuidIntArray(s, pos)
  {
    if |s| - pos >= 16 {
      LongFromTwoInts(s, pos);
      LongFromTwoInts(s, pos + 8);
    }
  }

  /**
   They differ only in where a short buffer fails: with four readable bytes
   readUuid fails before moving the reader index, readUuidIntArray after
   its first `int`.
   */
  lemma {:induction false} UuidReadersFailApart()
    ensures ReadUuid([0, 0, 0, 0], 0).Threw? && ReadUuid([0, 0, 0, 0], 0).at == 0
    ensures ReadUuidIntArray([0, 0, 0, 0], 0).Threw? && ReadUuidIntArray([0, 0, 0, 0], 0).at == 4
  {
  }

  /** The UUID reads back as written through the `int` layout too. */
  lemma {:induction false} UuidIntArrayRoundTrip(s: seq<Byte>, pos: nat, u: Uuid)
    requires At(s, pos, WriteUuidIntArray(u))
    ensures ReadUuidIntArray(s, pos) == Done(u, pos + 16)
  {
    UuidLayoutsAgree(u);
    UuidRoundTrip(s, pos, u);
    UuidReadersAgree(s, pos);
  }

  // ---------------------------------------------------------- string arrays

  predicate AllWritable(a: seq<string>)
  {
    forall i :: 0 <= i < |a| ==> Writable(a[i])
  }

  /** The strings of `a`, each written by writeString, one after another. */
  function WriteStrings(a: seq<string>): seq<Byte>
    requires AllWritable(a)
  {
    Concat(WriteString, a)
  }

  /**
   writeStringArray(buf, array): the element count as a varint, then the
   strings, so a reader of the frame finds the count first.
   */
  function WriteStringArray(a: seq<string>): (w: seq<Byte>)
    requires |a| <= MAX_INT && AllWritable(a)
    ensures VarInt.Read(w, 0) == Done(|a|, |VarInt.Write(|a|)|)
  {
    var w := VarInt.Write(|a|) + WriteStrings(a);
    AtSlice(w, 0, VarInt.Write(|a|));
    assert w[..|VarInt.Write(|a|)|] == VarInt.Write(|a|);
    VarIntAt(w, 0, |a|);
    w
  }

  /** readString(buf) as a reader over the written bytes `s`. */
  function StringReader(rev: Revision, s: seq<Byte>): (read: nat --> Read<string>)
    ensures ReaderWithin(read, |s|)
  {
    (p: nat) requires p <= |s| => ReadString(rev, s, p)
  }

  /** `n` strings read one after another with readString(buf). */
  function ReadStrings(rev: Revision, s: seq<Byte>, pos: nat, n: nat): (r: Read<seq<string>>)
    requires pos <= |s|
    ensures r.Done? ==> |r.value| == n && pos <= r.next <= |s|
    ensures r.Threw? ==> pos <= r.at <= |s|
  {
    Repeat(StringReader(rev, s), |s|, pos, n)
  }

  /**
   readStringArray(buf): a varint count, then that many strings; a negative
   count fails in `new String[length]`.
   */
  function ReadStringArray(rev: Revision, s: seq<Byte>, pos: nat): (r: Read<seq<string>>)
    requires pos <= |s|
    ensures r.Done? ==> pos < r.next <= |s|
    ensures r.Threw? ==> pos <= r.at <= |s|
    ensures VarInt.Read(s, pos).Done? && VarInt.Read(s, pos).value < 0 ==>
      r == Threw(CodecError(NegativeArraySizeException, NegativeLength), VarInt.Read(s, pos).next)
  {
    match VarInt.Read(s, pos)
    case Threw(e, at) => Threw(e, at)
    case Done(n, p) =>
      if n < 0 then Threw(CodecError(NegativeArraySizeException, NegativeLength), p)
      else ReadStrings(rev, s, p, n)
  }

  /** Every element fits readString(buf)'s default cap. */
  predicate AllWithinDefaultCap(a: seq<string>)
  {
    forall i :: 0 <= i < |a| ==> Utf8.Utf16Length(a[i]) <= DEFAULT_MAX_STRING_SIZE
  }

  /** Strings within the default cap, written one after another, read back one after another. */
  lemma {:induction false} StringsRoundTrip(rev: Revision, s: seq<Byte>, pos: nat, a: seq<string>)
    requires AllWithinDefaultCap(a) && AllWritable(a)
    requires At(s, pos, WriteStrings(a))
    ensures ReadStrings(rev, s, pos, |a|) == Done(a, pos + |WriteStrings(a)|)
  {
    var ps := ConcatAt(WriteString, s, pos, a);
    var read := StringReader(rev, s);
    forall i | 0 <= i < |a|
      ensures ps[i] <= |s| && read(ps[i]) == Done(a[i], ps[i + 1])
    {
      DefaultStringRoundTrip(rev, s, ps[i], a[i]);
    }
    RepeatReadsBack(read, |s|, a, ps);
  }

  /**
   A string array whose elements fit the default cap reads back as written;
   the count prefix is the array's length.
   */
  lemma {:induction false} StringArrayRoundTrip(rev: Revision, s: seq<Byte>, pos: nat, a: seq<string>)
    requires |a| <= MAX_INT && AllWithinDefaultCap(a)
    requires AllWritable(a) && At(s, pos, WriteStringArray(a))
    ensures VarInt.Read(s, pos) == Done(|a|, pos + |VarInt.Write(|a|)|)
    ensures ReadStringArray(rev, s, pos) == Done(a, pos + |WriteStringArray(a)|)
  {
    var p := pos + |VarInt.Write(|a|)|;
    AtSplit(s, pos, VarInt.Write(|a|), WriteStrings(a));
    VarIntAt(s, pos, |a|);
    StringsRoundTrip(rev, s, p, a);
    StringArrayAccepted(rev, s, pos, |a|, p, a, p + |WriteStrings(a)|);
  }

  lemma {:induction false} StringArrayAccepted(rev: Revision, s: seq<Byte>, pos: nat, n: Int32, p: nat, a: seq<string>, q: nat)
    requires pos <= |s| && 0 <= n && VarInt.Read(s, pos) == Done(n, p)
    requires ReadStrings(rev, s, p, n) == Done(a, q)
    ensures ReadStringArray(rev, s, pos) == Done(a, q)
  {
  }
}

=== FILE: codec_errors.dfy ===
/** The exceptions the codec throws and why. */
module CodecErrors {

  /**
   The two revisions of the codec. They differ only in the exception class
   their frame checks throw: `checkFrame` throws RuntimeException in the
   earlier one, `Preconditions.checkState` IllegalStateException in the
   later one.
   */
  datatype Revision = Earlier | Later

  datatype Thrown =
    | RuntimeException
    | IllegalStateException
    | IllegalArgumentException
    | IndexOutOfBoundsException
    | NegativeArraySizeException

  datatype Reason =
    | BadVarInt          // no terminating byte within five, or the sentinel value
    | NegativeLength     // a length prefix below zero
    | LengthOverCap      // a byte length above the cap (cap * 4 for strings)
    | NotEnoughReadable  // fewer readable bytes than the length prefix claims
    | DecodedOverCap     // a decoded string with more UTF-16 units than the cap
    | Underflow          // a fixed-width read past the writer index

  datatype CodecError = CodecError(thrown: Thrown, reason: Reason)

  /**
   The outcome of a read from a buffer: the value and the reader index after
   it, or the exception and the reader index at the moment it is thrown.
   */
  datatype Read<+T> = Done(value: T, next: nat) | Threw(error: CodecError, at: nat)

  /** The exception class of a failed frame check in revision `rev`. */
  function FrameCheck(rev: Revision): Thrown
  {
    match rev
    case Earlier => RuntimeException
    case Later => IllegalStateException
  }
}

=== FILE: compression.dfy ===
/**
 A Netty ByteBuf reduced to what the codec and the compression observe: the
 bytes written so far (so the writer index is their count), the reader
 index, and the maximum capacity.
 */
module Buffer {
  import opened JavaInt

  datatype Buf = Buf(written: seq<Byte>, readerIndex: nat, maxCapacity: nat)
  {
    /** Netty's index invariant: 0 <= readerIndex <= writerIndex <= maxCapacity. */
    predicate Valid()
    {
      readerIndex <= |written| <= maxCapacity
    }

    function WriterIndex(): nat
    {
      |written|
    }

    /** The readable bytes: from the reader index up to the writer index. */
    function Readable(): (r: seq<Byte>)
      requires Valid()
      ensures |r| == WriterIndex() - readerIndex
    {
      written[readerIndex..]
    }
  }
}

/** NoCompression in its two revisions: the bytes of a buffer out, and a buffer around bytes back in. */
module Compression {
  import opened JavaInt
  import opened Buffer

  /**
   compress in the later revision: `buf.readerIndex(0)` and then
   ByteBufUtil.getBytes(buf), which copies the readable bytes without moving
   either index. The buffer comes back with its reader index at 0.
   */
  function CompressLater(b: Buf): (r: (seq<Byte>, Buf))
    requires b.Valid()
    ensures r.1.Valid() && r.1.readerIndex == 0
    ensures r.1.written == b.written && r.1.maxCapacity == b.maxCapacity
    ensures |r.0| == b.WriterIndex() && forall i :: 0 <= i < |r.0| ==> r.0[i] == b.written[i]
  {
    var rewound := b.(readerIndex := 0);
    (rewound.Readable(), rewound)
  }

  /**
   compress in the earlier revision: a `readableBytes()`-long array filled
   by an absolute `getBytes(readerIndex, data)`, so no index moves.
   */
  function CompressEarlier(b: Buf): (r: (seq<Byte>, Buf))
    requires b.Valid()
    ensures r.1 == b
    ensures |r.0| == b.WriterIndex() - b.readerIndex
    ensures forall i :: 0 <= i < |r.0| ==> r.0[i] == b.written[b.readerIndex + i]
  {
    (b.written[b.readerIndex .. b.readerIndex + (b.WriterIndex() - b.readerIndex)], b)
  }

  /**
   decompress (both revisions): a buffer of initial and maximum capacity
   `data.length` into which `data` is written, so the reader index is 0 and
   the writer index is `data.length`.
   */
  function Decompress(data: seq<Byte>): (b: Buf)
    ensures b.Valid() && b.readerIndex == 0 && b.maxCapacity == |data|
    ensures b.WriterIndex() == |data|
  {
    Buf(data, 0, |data|)
  }

  /** The buffer decompress builds holds exactly `data` as its readable bytes. */
  lemma DecompressReadable(data: seq<Byte>)
    ensures Decompress(data).Readable() == data
  {
  }

  /**
   Later revision: decompressing what compress produced gives back every
   byte written to the original buffer, whatever had already been read.
   */
  lemma LaterRoundTrip(b: Buf)
    requires b.Valid()
    ensures Decompress(CompressLater(b).0).Readable() == b.written
  {
  }

  /** Earlier revision: the round trip gives back the original's readable bytes. */
  lemma EarlierRoundTrip(b: Buf)
    requires b.Valid()
    ensures Decompress(CompressEarlier(b).0).Readable() == b.Readable()
  {
  }

  /**
   The two revisions' compress agree exactly when nothing has been read
   from the buffer yet; after a read the later one also resends the bytes
   already consumed.
   */
  lemma RevisionsAgree(b: Buf)
    requires b.Valid()
    ensures CompressLater(b).0 == CompressEarlier(b).0 <==> b.readerIndex == 0 || b.WriterIndex() == 0
  {
    if CompressLater(b).0 == CompressEarlier(b).0 {
      assert |CompressLater(b).0| == |CompressEarlier(b).0|;
    }
  }

  /** A concrete buffer on which the revisions differ: two bytes written, one read. */
  lemma RevisionsDiffer()
    ensures CompressLater(Buf([1, 2], 1, 2)).0 == [1, 2]
    ensures CompressEarlier(Buf([1, 2], 1, 2)).0 == [2]
  {
  }

  /** Empty in, empty out, in both directions and both revisions. */
  lemma EmptyCases(b: Buf)
    requires b.Valid() && b.WriterIndex() == 0
    ensures CompressLater(b).0 == [] && CompressEarlier(b).0 == []
    ensures Decompress([]).Readable() == [] && Decompress([]).maxCapacity == 0
  {
  }

  /** Compressing twice with the later revision yields the same bytes and buffer. */
  lemma LaterCompressIdempotent(b: Buf)
    requires b.Valid()
    ensures CompressLater(CompressLater(b).1) == CompressLater(b)
  {
  }
}

=== FILE: core_messaging_service.dfy ===
/**
 The sequential parts of the earlier MessagingService: it keeps the name it
 is given, builds the same frame, and leaves payload decoding to the
 earlier PacketManager's `read`.
 */
module CoreMessagingService {
  import opened JavaInt
  import opened Wrappers
  import opened CodecErrors
  import Codec
  import opened Packets
  import CorePacketManager
  import opened Buffer
  import Compression
  import CapacityWindow
  import opened Frames
  import MessagingService
  import PacketManager

  /** The state the sequential paths read and change. */
  datatype Service = Service(
    serverId: Codec.Uuid,
    serviceName: string,
    manager: CorePacketManager.Manager,
    window: CapacityWindow.Window)

  /** The constructor, with `UUID.randomUUID()` supplied as `serverId`; the name is stored verbatim. */
  function New(name: string, manager: CorePacketManager.Manager, serverId: Codec.Uuid): (svc: Service)
    ensures svc.serviceName == name && svc.manager == manager && svc.serverId == serverId
    ensures CapacityWindow.Valid(svc.window) && CapacityWindow.InitialCapacity(svc.window) == CapacityWindow.INITIAL_CAPACITY
  {
    Service(serverId, name, manager, CapacityWindow.New())
  }

  /** The later revision normalises a name this revision keeps as it is. */
  lemma NamesDiffer()
    ensures New(" my service ", CorePacketManager.Empty(), Codec.Uuid(0, 0)).serviceName == " my service "
    ensures MessagingService.ServiceName(" my service ") == "my_service"
  {
    var name := " my service ";
    assert MessagingService.FirstKept(name) == 1;
    assert MessagingService.EndKept(name, 1) == 11;
    assert name[1..11] == "my service";
  }

  /** As in the later revision: the frame fits an int writer index and its strings fit their prefix. */
  predicate Sendable(svc: Service, p: Packet)
  {
    && CapacityWindow.Valid(svc.window)
    && Codec.Writable(p.message)
    && (CorePacketManager.Id(svc.manager, p).Some? ==>
          var id := CorePacketManager.Id(svc.manager, p).value;
          Codec.Writable(id) && |Frame(svc.serverId, id, Packets.Write(p))| <= MAX_INT)
  }

  /**
   sendPacket(packet): an unregistered packet throws before encoding and
   the service is unchanged; otherwise the frame is compressed with this
   revision's NoCompression, handed to the broker and its size recorded.
   */
  function Send(svc: Service, p: Packet): (r: (SendOutcome, Service))
    requires Sendable(svc, p)
    ensures r.0.NotRegistered? <==> CorePacketManager.Id(svc.manager, p).None?
    ensures r.0.NotRegistered? ==> r.0.simpleName == p.cls.simpleName && r.1 == svc
    ensures r.0.Sent? ==>
      && r.0.data == Frame(svc.serverId, p.cls.simpleName, Packets.Write(p))
      && r.1 == svc.(window := CapacityWindow.AddCapacity(svc.window, |r.0.data|))
  {
    match CorePacketManager.Id(svc.manager, p)
    case None => (NotRegistered(p.cls.simpleName), svc)
    case Some(id) =>
      var buf := Buf(Frame(svc.serverId, id, Packets.Write(p)), 0, MAX_INT);
      var (data, _) := Compression.CompressEarlier(buf);
      (Sent(data), svc.(window := CapacityWindow.AddCapacity(svc.window, buf.WriterIndex())))
  }

  /**
   handleMessage(message): decompress, readUuid, readString, then
   packetManager.read(type, buf). A null packet is dropped; any exception
   is caught and logged.
   */
  function HandleMessage(m: CorePacketManager.Manager, message: seq<Byte>): (r: Handled)
    ensures |message| < 16 ==> r == Logged(CodecError(IndexOutOfBoundsException, Underflow))
    ensures r.Dropped? ==> r.typeId !in m.idToType
    ensures r.Posted? ==> r.packet.cls in m.idToType.Values
  {
    var buf := Compression.Decompress(message);
    match ReadHeader(Earlier, buf.written, buf.readerIndex)
    case Threw(e, _) => Logged(e)
    case Done(h, p) => Dispatch(m, buf.written, h, p)
  }

  /** What handleMessage does once the header is read and the reader index is at `pos`. */
  function Dispatch(m: CorePacketManager.Manager, s: seq<Byte>, h: Header, pos: nat): (r: Handled)
    requires pos <= |s|
    ensures r.Dropped? <==> h.typeId !in m.idToType
    ensures r.Dropped? ==> r == Dropped(h.sender, h.typeId)
    ensures r.Posted? ==> r.sender == h.sender && h.typeId in m.idToType && r.packet.cls == m.idToType[h.typeId]
  {
    match CorePacketManager.Read(m, h.typeId, s, pos)
    case Threw(e, _) => Logged(e)
    case Done(None, _) => Dropped(h.sender, h.typeId)
    case Done(Some(packet), _) => Posted(h.sender, packet)
  }

  /**
   A frame carrying a packet's bytes under its class's simple name, handled
   by a registry holding that class, posts an equal packet from the frame's
   sender.
   */
  lemma {:induction false} HandleFrame(m: CorePacketManager.Manager, serverId: Codec.Uuid, p: Packet)
    requires IdFits(p.cls.simpleName) && Packets.Fits(p.message)
    requires CorePacketManager.Invariant(m) && p.cls in m.typeToId
    ensures HandleMessage(m, Frame(serverId, p.cls.simpleName, Packets.Write(p))) == Posted(serverId, p)
  {
    var id := p.cls.simpleName;
    var data := Frame(serverId, id, Packets.Write(p));
    var body := 16 + |Codec.WriteString(id)|;
    HeaderRoundTrip(Earlier, serverId, id, Packets.Write(p));
    PayloadAt(serverId, id, p);
    CorePacketManager.ReadRegistered(m, p, data, body);
    assert Dispatch(m, data, Header(serverId, id), body) == Posted(serverId, p);
  }

  /**
   The frame round trip: bytes sent for a packet whose class is registered
   at the receiver post an equal packet from the sending server.
   */
  lemma {:induction false} SendThenHandle(sender: Service, p: Packet, receiver: CorePacketManager.Manager)
    requires Sendable(sender, p) && Packets.Fits(p.message)
    requires CorePacketManager.Id(sender.manager, p).Some? && IdFits(p.cls.simpleName)
    requires CorePacketManager.Invariant(receiver) && p.cls in receiver.typeToId
    ensures Send(sender, p).0.Sent?
    ensures HandleMessage(receiver, Send(sender, p).0.data) == Posted(sender.serverId, p)
  {
    HandleFrame(receiver, sender.serverId, p);
  }

  /**
   A frame whose type id is unknown is dropped with its sender and id,
   whatever follows the header.
   */
  lemma {:induction false} UnknownTypeDropped(m: CorePacketManager.Manager, serverId: Codec.Uuid, typeId: string, payload: seq<Byte>)
    requires IdFits(typeId) && typeId !in m.idToType
    ensures HandleMessage(m, Frame(serverId, typeId, payload)) == Dropped(serverId, typeId)
  {
    HeaderRoundTrip(Earlier, serverId, typeId, payload);
  }

  /**
   Both revisions put the same bytes on the wire for a packet registered
   under the same id: the send buffer is new, so the two compressions agree.
   */
  lemma SameFrameAsLater(svc: Service, later: MessagingService.Service, p: Packet)
    requires Sendable(svc, p) && MessagingService.Sendable(later, p)
    requires later.serverId == svc.serverId
    requires CorePacketManager.Id(svc.manager, p).Some?
    requires PacketManager.Id(later.manager, p) == Some(p.cls.simpleName)
    ensures Send(svc, p).0 == MessagingService.Send(later, p).0
  {
  }
}

=== FILE: core_packet_manager.dfy ===
/**
 The earlier PacketManager: ids are the classes' simple names, and instances
 are made by reflection through the public no-argument constructor, which
 register tries once up front.
 */
module CorePacketManager {
  import opened JavaInt
  import opened Wrappers
  import opened CodecErrors
  import opened Packets

  /** Why register throws. */
  datatype RegisterError =
    | AlreadyRegistered(cls: PacketClass)   // the class or its simple name is present
    | NotInstantiable(cls: PacketClass)     // getConstructor() or newInstance() failed

  /**
   `typeToId` maps a class to its id; `idToType` maps the id to the class
   whose constructor makes its instances.
   */
  datatype Manager = Manager(typeToId: map<PacketClass, string>, idToType: map<string, PacketClass>)

  function Empty(): (m: Manager)
    ensures m.typeToId == map[] && m.idToType == map[]
  {
    Manager(map[], map[])
  }

  /**
   The two maps describe the same registrations: each class maps to its
   simple name, that name maps back to the class, every class behind an id
   is in `typeToId` and passed the reflection check, and the maps have the
   same size.
   */
  ghost predicate Invariant(m: Manager)
  {
    && |m.typeToId| == |m.idToType|
    && (forall c :: c in m.typeToId ==>
          m.typeToId[c] == c.simpleName && c.simpleName in m.idToType && m.idToType[c.simpleName] == c)
    && (forall id :: id in m.idToType ==> m.idToType[id] in m.typeToId && m.idToType[id].instantiable)
  }

  /** numerRegisteredPackets(): the number of ids, which is also the number of registered classes. */
  function Count(m: Manager): (n: nat)
    ensures Invariant(m) ==> n == |m.typeToId|
  {
    |m.idToType|
  }

  /**
   register(clazz): rejects a class, or a simple name, already present;
   then a class reflection cannot instantiate; otherwise maps the class to
   its simple name and the name to the class.
   */
  function Register(m: Manager, cls: PacketClass): (r: Result<Manager, RegisterError>)
    ensures r.Err? <==> cls in m.typeToId || cls.simpleName in m.idToType || !cls.instantiable
    ensures (cls in m.typeToId || cls.simpleName in m.idToType) ==> r == Err(AlreadyRegistered(cls))
    ensures r.Ok? ==> forall c :: c in r.value.typeToId <==> c in m.typeToId || c == cls
    ensures r.Ok? ==> forall id :: id in r.value.idToType <==> id in m.idToType || id == cls.simpleName
    ensures r.Ok? ==> r.value.typeToId[cls] == cls.simpleName && r.value.idToType[cls.simpleName] == cls
    ensures r.Ok? ==> forall c :: c in m.typeToId ==> r.value.typeToId[c] == m.typeToId[c]
    ensures r.Ok? ==> forall id :: id in m.idToType ==> r.value.idToType[id] == m.idToType[id]
  {
    var id := cls.simpleName;
    if cls in m.typeToId || id in m.idToType then Err(AlreadyRegistered(cls))
    else if !cls.instantiable then Err(NotInstantiable(cls))
    else Ok(Manager(m.typeToId[cls := id], m.idToType[id := cls]))
  }

  /** id(packet): the class's simple name when the class and the name are both present, else null. */
  function Id(m: Manager, p: Packet): (r: Option<string>)
    ensures r.Some? <==> p.cls in m.typeToId && p.cls.simpleName in m.idToType
    ensures r.Some? ==> r.value == p.cls.simpleName
  {
    if p.cls !in m.typeToId || p.cls.simpleName !in m.idToType then None else Some(p.cls.simpleName)
  }

  /**
   read(id, buf): null, with nothing read, for an unknown id; otherwise a
   new instance of the id's class on which `read(buf)` has run. The
   reflective newInstance cannot fail here because register tried it.
   */
  function Read(m: Manager, id: string, s: seq<Byte>, pos: nat): (r: Read<Option<Packet>>)
    requires pos <= |s|
    ensures id !in m.idToType <==> r == Done(None, pos)
    ensures r.Done? && r.value.Some? ==>
              id in m.idToType && r.value.value.cls == m.idToType[id] && Packets.Fits(r.value.value.message)
    ensures r.Done? ==> pos <= r.next <= |s|
    ensures r.Threw? ==> id in m.idToType && pos <= r.at <= |s| && r.error.thrown == RuntimeException
  {
    if id !in m.idToType then Done(None, pos)
    else
      match Packets.Read(Earlier, Fresh(m.idToType[id]), s, pos)
      case Threw(e, at) => Threw(e, at)
      case Done(p, next) => Done(Some(p), next)
  }

  lemma EmptyInvariant()
    ensures Invariant(Empty())
  {
  }

  /** register keeps the invariant, and each success adds exactly one to the count. */
  lemma RegisterPreserves(m: Manager, cls: PacketClass)
    requires Invariant(m)
    ensures Register(m, cls).Ok? ==> Invariant(Register(m, cls).value)
    ensures Register(m, cls).Ok? ==> Count(Register(m, cls).value) == Count(m) + 1
  {
  }

  /**
   Under the invariant id(packet) answers exactly for registered classes,
   and reading by that id makes an instance of the same class.
   */
  lemma IdOfRegistered(m: Manager, p: Packet)
    requires Invariant(m)
    ensures Id(m, p).Some? <==> p.cls in m.typeToId
    ensures Id(m, p).Some? ==> m.idToType[Id(m, p).value] == p.cls
  {
  }

  /**
   The registrations of `classes` in order, each failure leaving the
   manager as it was: the final manager and how many succeeded.
   */
  function RegisterAll(m: Manager, classes: seq<PacketClass>): (r: (Manager, nat))
    ensures r.1 <= |classes|
    decreases |classes|
  {
    if classes == [] then (m, 0)
    else
      var (m', ok) := match Register(m, classes[0])
        case Ok(next) => (next, 1)
        case Err(_) => (m, 0);
      var (last, more) := RegisterAll(m', classes[1..]);
      (last, ok + more)
  }

  /**
   numerRegisteredPackets counts the successful registrations: there is no
   unregister in this revision.
   */
  lemma {:induction false} CountIsSuccesses(m: Manager, classes: seq<PacketClass>)
    requires Invariant(m)
    ensures Invariant(RegisterAll(m, classes).0)
    ensures Count(RegisterAll(m, classes).0) == Count(m) + RegisterAll(m, classes).1
    decreases |classes|
  {
    if classes != [] {
      RegisterPreserves(m, classes[0]);
      match Register(m, classes[0])
      case Ok(next) => CountIsSuccesses(next, classes[1..]);
      case Err(_) => CountIsSuccesses(m, classes[1..]);
    }
  }

  /** What a packet writes, read by its registered id gives back an equal packet. */
  lemma {:induction false} ReadRegistered(m: Manager, p: Packet, s: seq<Byte>, pos: nat)
    requires Invariant(m) && p.cls in m.typeToId
    requires Fits(p.message) && Codec.At(s, pos, Packets.Write(p))
    ensures Read(m, p.cls.simpleName, s, pos) == Done(Some(p), pos + |Packets.Write(p)|)
  {
    Packets.ReadWrite(Earlier, p, s, pos);
  }
}

=== FILE: frames.dfy ===
/**
 The frame both MessagingService revisions put on the wire: the sending
 server's UUID as 16 big-endian bytes, the packet's type id as a
 varint-prefixed UTF-8 string, then whatever the packet writes. The class
 Javadoc labels the server ID a String, where both revisions write it as a
 UUID, and draws a message-id UUID between the two, which neither revision
 writes or reads.
 */
module Frames {
  import opened JavaInt
  import opened CodecErrors
  import Codec
  import Utf8
  import Packets

  /** The bytes sendPacket builds before compression. */
  function Frame(serverId: Codec.Uuid, typeId: string, payload: seq<Byte>): (w: seq<Byte>)
    requires Codec.Writable(typeId)
    ensures |w| == 16 + |Codec.WriteString(typeId)| + |payload|
  {
    Codec.WriteUuid(serverId) + Codec.WriteString(typeId) + payload
  }

  /** The sender and type id at the head of a frame. */
  datatype Header = Header(sender: Codec.Uuid, typeId: string)

  /**
   The first two reads of handleMessage: readUuid, then readString with the
   default cap; the first exception ends the reading.
   */
  function ReadHeader(rev: Revision, s: seq<Byte>, pos: nat): (r: Read<Header>)
    requires pos <= |s|
    ensures |s| - pos < 16 ==> r.Threw? && r.error == CodecError(IndexOutOfBoundsException, Underflow)
    ensures r.Done? ==> pos + 16 < r.next <= |s| && Utf8.Utf16Length(r.value.typeId) <= Codec.DEFAULT_MAX_STRING_SIZE
    ensures r.Threw? ==> pos <= r.at <= |s|
  {
    match Codec.ReadUuid(s, pos)
    case Threw(e, at) => Threw(e, at)
    case Done(sender, p) =>
      match Codec.ReadString(rev, s, p)
      case Threw(e, at) => Threw(e, at)
      case Done(typeId, q) => Done(Header(sender, typeId), q)
  }

  /** A type id the receiver can read back: within readString's default cap. */
  predicate IdFits(typeId: string)
  {
    Utf8.Utf16Length(typeId) <= Codec.DEFAULT_MAX_STRING_SIZE && Codec.Writable(typeId)
  }

  /**
   The header of a frame reads back as the sender and type id it was built
   with, and leaves the reader index on the first payload byte, whatever
   the payload is.
   */
  lemma {:induction false} HeaderRoundTrip(rev: Revision, serverId: Codec.Uuid, typeId: string, payload: seq<Byte>)
    requires IdFits(typeId)
    ensures var s := Frame(serverId, typeId, payload);
      var body := 16 + |Codec.WriteString(typeId)|;
      && ReadHeader(rev, s, 0) == Done(Header(serverId, typeId), body)
      && s[body..] == payload
  {
    var u, w := Codec.WriteUuid(serverId), Codec.WriteString(typeId);
    var s := Frame(serverId, typeId, payload);
    Codec.AtSlice(s, 0, u);
    assert s[0..16] == u;
    Codec.UuidRoundTrip(s, 0, serverId);
    Codec.AtSlice(s, 16, w);
    assert s[16 .. 16 + |w|] == w;
    Codec.DefaultStringRoundTrip(rev, s, 16, typeId);
    assert s[16 + |w|..] == payload;
  }

  /** A packet's own bytes, as the payload of a frame, sit after the header. */
  lemma {:induction false} PayloadAt(serverId: Codec.Uuid, typeId: string, p: Packets.Packet)
    requires IdFits(typeId) && Packets.Fits(p.message)
    ensures Codec.At(Frame(serverId, typeId, Packets.Write(p)), 16 + |Codec.WriteString(typeId)|, Packets.Write(p))
  {
    var s := Frame(serverId, typeId, Packets.Write(p));
    var body := 16 + |Codec.WriteString(typeId)|;
    Codec.AtSlice(s, body, Packets.Write(p));
    assert s[body .. body + |Packets.Write(p)|] == Packets.Write(p);
  }

  /** What handleMessage does with a message: post a packet, drop it, or log an exception. */
  datatype Handled =
    | Posted(sender: Codec.Uuid, packet: Packets.Packet)   // eventBus.post(packet)
    | Dropped(sender: Codec.Uuid, typeId: string)          // "Received an unknown packet"
    | Logged(error: CodecError)                            // "error handling packet"

  /** What sendPacket does: throw for an unregistered packet, or hand bytes to the broker. */
  datatype SendOutcome =
    | NotRegistered(simpleName: string)   // IllegalStateException "Packet <name> is not registered!"
    | Sent(data: seq<Byte>)               // broker.sendMessage(data)
}

=== FILE: java_int.dfy ===
/**
 Java's fixed-width integers as bounded subsets of `int`, with the
 two's-complement conversions the codec needs written out explicitly.
 */
module JavaInt {

  const TWO_32: int := 0x1_0000_0000
  const TWO_64: int := 0x1_0000_0000_0000_0000
  /** Integer.MIN_VALUE and Integer.MAX_VALUE */
  const MIN_INT: int := -0x8000_0000
  const MAX_INT: int := 0x7FFF_FFFF

  /** A Java `byte` as it sits in a buffer, read as its unsigned value. */
  type Byte = x: int | 0 <= x < 0x100

  /** A Java `int`. */
  type Int32 = x: int | -0x8000_0000 <= x < 0x8000_0000

  /** A Java `long`. */
  type Int64 = x: int | -0x8000_0000_0000_0000 <= x < 0x8000_0000_0000_0000

  /** The 32 bits of `x` read as an unsigned number. */
  function Unsigned32(x: Int32): (u: nat)
    ensures u < TWO_32
    ensures u % TWO_32 == x % TWO_32
  {
    if x < 0 then x + TWO_32 else x
  }

  /** The `int` whose 32 bits, read unsigned, are `u`. */
  function Signed32(u: nat): (x: Int32)
    requires u < TWO_32
    ensures Unsigned32(x) == u
  {
    if u > MAX_INT then u - TWO_32 else u
  }

  /** A narrowing cast `(int) x`: keep the low 32 bits. */
  function Wrap32(x: int): (r: Int32)
    ensures Unsigned32(r) == x % TWO_32
  {
    Signed32(x % TWO_32)
  }

  /** The 64 bits of `x` read as an unsigned number. */
  function Unsigned64(x: Int64): (u: nat)
    ensures u < TWO_64
    ensures u % TWO_64 == x % TWO_64
  {
    if x < 0 then x + TWO_64 else x
  }

  /** The `long` whose 64 bits, read unsigned, are `u`. */
  function Signed64(u: nat): (x: Int64)
    requires u < TWO_64
    ensures Unsigned64(x) == u
  {
    if u >= 0x8000_0000_0000_0000 then u - TWO_64 else u
  }

  lemma ModSmall(u: int, m: int)
    requires 0 <= u < m
    ensures u % m == u
  {
  }

  lemma SignedUnsigned32(x: Int32)
    ensures Signed32(Unsigned32(x)) == x
  {
  }

  lemma SignedUnsigned64(x: Int64)
    ensures Signed64(Unsigned64(x)) == x
  {
  }
}

=== FILE: math_util.dfy ===
/**
 MathUtil of the later revision: fastutil's three-way quicksort with its
 selection-sort cutoff and median-of-three pivot, and the percentile built
 on it. Java sorts an int[] in place; here each routine takes the array's
 contents as a sequence and returns the rearranged contents.
 */
module MathUtil {
  import opened JavaInt
  import opened Wrappers

  const QUICKSORT_NO_REC: nat := 16
  const QUICKSORT_MEDIAN_OF_9: nat := 128

  /** Ascending order on s[lo..hi). */
  predicate SortedRange(s: seq<int>, lo: int, hi: int)
    requires 0 <= lo <= hi <= |s|
  {
    forall i, j :: lo <= i < j < hi ==> s[i] <= s[j]
  }

  predicate Sorted(s: seq<int>)
  {
    SortedRange(s, 0, |s|)
  }

  /**
   `b` is `a` with a[lo..hi) rearranged: the same elements overall and
   the same prefix a[..lo] and suffix a[hi..], so the same elements in
   the range (PermOnRange).
   */
  ghost predicate PermOn(a: seq<int>, b: seq<int>, lo: int, hi: int)
  {
    && |a| == |b| && 0 <= lo <= hi <= |a|
    && multiset(a) == multiset(b)
    && a[..lo] == b[..lo] && a[hi..] == b[hi..]
  }

  // ---------------------------------------------------------------
  // The reference order: insertion sort

  /** `v` inserted into sorted `s` before the first element not below it. */
  function Insert(v: int, s: seq<int>): (r: seq<int>)
    ensures |r| == |s| + 1 && multiset(r) == multiset(s) + multiset{v}
    ensures r[0] == v || (s != [] && r[0] == s[0])
    ensures Sorted(s) ==> Sorted(r)
  {
    if s == [] || v <= s[0] then [v] + s
    else
      assert s == [s[0]] + s[1..];
      var rest := Insert(v, s[1..]);
      assert Sorted(s) ==> Sorted([s[0]] + rest) by {
        if Sorted(s) {
          SortedTail(s);
          ConsSorted(s[0], rest);
        }
      }
      [s[0]] + rest
  }

  /** The sorted arrangement of `s`, by insertion sort. */
  function SortSpec(s: seq<int>): (r: seq<int>)
    ensures Sorted(r) && multiset(r) == multiset(s) && |r| == |s|
  {
    if s == [] then []
    else
      assert s == [s[0]] + s[1..];
      Insert(s[0], SortSpec(s[1..]))
  }

  /** A sorted sequence starts with the least of its elements. */
  lemma {:induction false} SortedHeadIsMin(s: seq<int>, v: int)
    requires Sorted(s) && v in multiset(s)
    ensures s[0] <= v
  {
    var k :| 0 <= k < |s| && s[k] == v;
  }

  /** A sorted sequence stays sorted with an element no greater than its head put in front. */
  lemma ConsSorted(x: int, s: seq<int>)
    requires Sorted(s) && (s != [] ==> x <= s[0])
    ensures Sorted([x] + s)
  {
    var r := [x] + s;
    forall i, j | 0 <= i < j < |r|
      ensures r[i] <= r[j]
    {
      if i == 0 {
        assert r[j] == s[j - 1];
      } else {
        assert r[i] == s[i - 1] && r[j] == s[j - 1];
      }
    }
  }

  lemma SortedTail(s: seq<int>)
    requires Sorted(s) && s != []
    ensures Sorted(s[1..])
  {
    assert forall i, j :: 0 <= i < j < |s| - 1 ==> s[1..][i] == s[i + 1] && s[1..][j] == s[j + 1];
  }

  /** Taking the head off two equal multisets of sequences with equal heads leaves equal multisets. */
  lemma TailMultiset(a: seq<int>, b: seq<int>)
    requires a != [] && b != [] && a[0] == b[0] && multiset(a) == multiset(b)
    ensures multiset(a[1..]) == multiset(b[1..])
  {
    assert a == [a[0]] + a[1..] && b == [b[0]] + b[1..];
    assert multiset(a) == multiset{a[0]} + multiset(a[1..]);
    assert multiset(b) == multiset{b[0]} + multiset(b[1..]);
    assert multiset(a[1..]) == multiset(a) - multiset{a[0]};
    assert multiset(b[1..]) == multiset(b) - multiset{b[0]};
  }

  /**
   There is only one sorted arrangement of a multiset of integers, so any
   sorting routine agrees with SortSpec.
   */
  lemma {:induction false} SortedUnique(a: seq<int>, b: seq<int>)
    requires Sorted(a) && Sorted(b) && multiset(a) == multiset(b)
    ensures a == b
    decreases |a|
  {
    if a == [] {
      assert |b| == |multiset(b)| == 0;
    } else {
      assert a[0] in multiset(a);
      assert b != [] by {
        assert multiset(b) != multiset{};
      }
      assert b[0] in multiset(b);
      SortedHeadIsMin(a, b[0]);
      SortedHeadIsMin(b, a[0]);
      TailMultiset(a, b);
      SortedTail(a);
      SortedTail(b);
      SortedUnique(a[1..], b[1..]);
      assert a == [a[0]] + a[1..] && b == [b[0]] + b[1..];
    }
  }

  // ---------------------------------------------------------------
  // swap(x, a, b)

  /** swap(x, a, b): the elements at `i` and `j` exchanged. */
  function Swap(s: seq<int>, i: int, j: int): (r: seq<int>)
    requires 0 <= i < |s| && 0 <= j < |s|
    ensures |r| == |s| && r[i] == s[j] && r[j] == s[i]
    ensures forall k :: 0 <= k < |s| && k != i && k != j ==> r[k] == s[k]
  {
    s[i := s[j]][j := s[i]]
  }

  /** A swap inside a range rearranges that range and nothing else. */
  lemma {:induction false} SwapPermOn(s: seq<int>, i: int, j: int, lo: int, hi: int)
    requires 0 <= lo <= i < hi <= |s| && lo <= j < hi
    ensures PermOn(s, Swap(s, i, j), lo, hi)
  {
    var t := Swap(s, i, j);
    assert t[lo..hi] == s[lo..hi][i - lo := s[j]][j - lo := s[i]];
  }

  /** Swapping twice restores the sequence. */
  lemma SwapInvolution(s: seq<int>, i: int, j: int)
    requires 0 <= i < |s| && 0 <= j < |s|
    ensures Swap(Swap(s, i, j), i, j) == s
  {
  }

  /** One more swap inside the range keeps `y` a rearrangement of `x` there. */
  lemma SwapKeepsPermOn(x: seq<int>, y: seq<int>, i: int, j: int, lo: int, hi: int)
    requires PermOn(x, y, lo, hi) && lo <= i < hi && lo <= j < hi
    ensures PermOn(x, Swap(y, i, j), lo, hi)
  {
    SwapPermOn(y, i, j, lo, hi);
  }

  lemma PermOnStep(x: seq<int>, y: seq<int>, r: seq<int>, i: int, j: int, lo: int, hi: int)
    requires PermOn(x, y, lo, hi) && lo <= i < hi && lo <= j < hi && r == Swap(y, i, j)
    ensures PermOn(x, r, lo, hi)
  {
    SwapPermOn(y, i, j, lo, hi);
  }

  lemma PermOnRefl(a: seq<int>, lo: int, hi: int)
    requires 0 <= lo <= hi <= |a|
    ensures PermOn(a, a, lo, hi)
  {
  }

  lemma PermOnTrans(a: seq<int>, b: seq<int>, c: seq<int>, lo: int, hi: int)
    requires PermOn(a, b, lo, hi) && PermOn(b, c, lo, hi)
    ensures PermOn(a, c, lo, hi)
  {
  }

  /** A rearrangement of a range is one of every range around it. */
  lemma {:induction false} PermOnWiden(a: seq<int>, b: seq<int>, lo: int, hi: int, lo': int, hi': int)
    requires PermOn(a, b, lo, hi) && 0 <= lo' <= lo && hi <= hi' <= |a|
    ensures PermOn(a, b, lo', hi')
  {
    assert a[lo'..hi'] == a[lo'..lo] + a[lo..hi] + a[hi..hi'];
    assert b[lo'..hi'] == b[lo'..lo] + b[lo..hi] + b[hi..hi'];
    assert a[lo'..lo] == b[lo'..lo];
    assert a[hi..hi'] == b[hi..hi'];
  }

  /** A rearrangement of a range holds the same elements in that range. */
  lemma PermOnRange(a: seq<int>, b: seq<int>, lo: int, hi: int)
    requires PermOn(a, b, lo, hi)
    ensures multiset(a[lo..hi]) == multiset(b[lo..hi])
  {
    assert a == a[..lo] + a[lo..hi] + a[hi..];
    assert b == b[..lo] + b[lo..hi] + b[hi..];
    assert multiset(a[lo..hi]) == multiset(a) - multiset(a[..lo]) - multiset(a[hi..]);
    assert multiset(b[lo..hi]) == multiset(b) - multiset(b[..lo]) - multiset(b[hi..]);
  }

  /** A rearrangement of a range keeps every property all its elements had. */
  lemma {:induction false} PermOnKeeps(a: seq<int>, b: seq<int>, lo: int, hi: int, P: int -> bool)
    requires PermOn(a, b, lo, hi)
    requires forall k :: lo <= k < hi ==> P(a[k])
    ensures forall k :: lo <= k < hi ==> P(b[k])
  {
    PermOnRange(a, b, lo, hi);
    forall k | lo <= k < hi
      ensures P(b[k])
    {
      assert b[k] in multiset(b[lo..hi]) by {
        assert b[lo..hi][k - lo] == b[k];
      }
      var i :| 0 <= i < hi - lo && a[lo..hi][i] == b[k];
      assert a[lo + i] == b[k];
    }
  }

  // ---------------------------------------------------------------
  // selectionSort(a, from, to)

  /**
   selectionSort: for each position from `from` up to `to - 2`, the least
   element of the rest of the range (the first such, by strict `<`) is
   swapped into place.
   */
  method SelectionSort(x: seq<int>, fromIndex: int, toIndex: int) returns (y: seq<int>)
    requires 0 <= fromIndex <= toIndex <= |x|
    ensures PermOn(x, y, fromIndex, toIndex) && SortedRange(y, fromIndex, toIndex)
  {
    y := x;
    PermOnRefl(x, fromIndex, toIndex);
    var i := fromIndex;
    while i < toIndex - 1
      invariant fromIndex <= i <= toIndex
      invariant PermOn(x, y, fromIndex, toIndex) && Selected(y, fromIndex, i, toIndex)
    {
      var m := MinIndex(y, i, toIndex);
      if m != i {
        SwapKeepsPermOn(x, y, i, m, fromIndex, toIndex);
        SelectStep(y, fromIndex, i, m, toIndex);
        y := Swap(y, i, m);
      } else {
        SelectStep(y, fromIndex, i, m, toIndex);
      }
      i := i + 1;
    }
  }

  /** The state of selection sort after `i`: y[from..i) is sorted and no element of it exceeds one after it. */
  ghost predicate Selected(y: seq<int>, fromIndex: int, i: int, toIndex: int)
    requires 0 <= fromIndex <= i <= toIndex <= |y|
  {
    SortedRange(y, fromIndex, i) && forall k, l :: fromIndex <= k < i <= l < toIndex ==> y[k] <= y[l]
  }

  /** The inner loop of selection sort: the first position of a least element of y[i..to). */
  method MinIndex(y: seq<int>, i: int, toIndex: int) returns (m: int)
    requires 0 <= i < toIndex <= |y|
    ensures i <= m < toIndex && forall k :: i <= k < toIndex ==> y[m] <= y[k]
    ensures forall k :: i <= k < m ==> y[m] < y[k]
  {
    m := i;
    var j := i + 1;
    while j < toIndex
      invariant i < j <= toIndex && i <= m < j
      invariant forall k :: i <= k < j ==> y[m] <= y[k]
      invariant forall k :: i <= k < m ==> y[m] < y[k]
    {
      if y[j] < y[m] {
        m := j;
      }
      j := j + 1;
    }
  }

  /** Moving a least element of y[i..to) to position i extends the selected prefix by one. */
  lemma SelectStep(y: seq<int>, fromIndex: int, i: int, m: int, toIndex: int)
    requires 0 <= fromIndex <= i <= m < toIndex <= |y| && Selected(y, fromIndex, i, toIndex)
    requires forall k :: i <= k < toIndex ==> y[m] <= y[k]
    ensures Selected(Swap(y, i, m), fromIndex, i + 1, toIndex)
  {
  }

  // ---------------------------------------------------------------
  // med3(x, a, b, c)

  function Ord(b: bool): nat
  {
    if b then 1 else 0
  }

  /** `m` is one of three values, with at least two of them at most `m` and two at least `m`. */
  predicate IsMedian(m: int, u: int, v: int, w: int)
  {
    && (m == u || m == v || m == w)
    && Ord(u <= m) + Ord(v <= m) + Ord(w <= m) >= 2
    && Ord(u >= m) + Ord(v >= m) + Ord(w >= m) >= 2
  }

  /** med3: the index, among three, of the median value, by three comparisons. */
  function Med3(s: seq<int>, a: int, b: int, c: int): (r: int)
    requires 0 <= a < |s| && 0 <= b < |s| && 0 <= c < |s|
    ensures r == a || r == b || r == c
    ensures IsMedian(s[r], s[a], s[b], s[c])
  {
    if s[a] < s[b] then
      (if s[b] < s[c] then b else if s[a] < s[c] then c else a)
    else
      (if s[b] > s[c] then b else if s[a] > s[c] then c else a)
  }

  /**
   The median of three values is determined by them, so med3's answer
   does not depend on the order of the comparisons it makes.
   */
  lemma MedianUnique(m1: int, m2: int, u: int, v: int, w: int)
    requires IsMedian(m1, u, v, w) && IsMedian(m2, u, v, w)
    ensures m1 == m2
  {
  }

  /** Exchanging any two of med3's indices leaves the value it picks unchanged. */
  lemma Med3Symmetric(s: seq<int>, a: int, b: int, c: int)
    requires 0 <= a < |s| && 0 <= b < |s| && 0 <= c < |s|
    ensures s[Med3(s, a, b, c)] == s[Med3(s, b, a, c)] == s[Med3(s, a, c, b)] == s[Med3(s, c, b, a)]
  {
    var m := s[Med3(s, a, b, c)];
    MedianUnique(m, s[Med3(s, b, a, c)], s[a], s[b], s[c]);
    MedianUnique(m, s[Med3(s, a, c, b)], s[a], s[b], s[c]);
    MedianUnique(m, s[Med3(s, c, b, a)], s[a], s[b], s[c]);
  }

  // ---------------------------------------------------------------
  // swap(x, a, b, n)

  function Min(a: int, b: int): int
  {
    if a <= b then a else b
  }

  function Max(a: int, b: int): int
  {
    if a <= b then b else a
  }

  /** The pair swaps (a, b), (a+1, b+1), ..., (a+n-1, b+n-1), in that order. */
  function SwapBlock(s: seq<int>, a: int, b: int, n: nat): (r: seq<int>)
    requires 0 <= a && 0 <= b && a + n <= |s| && b + n <= |s|
    ensures |r| == |s|
    decreases n
  {
    if n == 0 then s else SwapBlock(Swap(s, a, b), a + 1, b + 1, n - 1)
  }

  /** Between disjoint blocks the pair swaps exchange the blocks element by element; nothing else moves. */
  lemma {:induction false} SwapBlockAt(s: seq<int>, a: int, b: int, n: nat, k: int)
    requires 0 <= a && 0 <= b && a + n <= |s| && b + n <= |s|
    requires a + n <= b || b + n <= a
    requires 0 <= k < |s|
    ensures SwapBlock(s, a, b, n)[k] ==
      if a <= k < a + n then s[b + (k - a)] else if b <= k < b + n then s[a + (k - b)] else s[k]
    decreases n
  {
    if n > 0 {
      SwapBlockAt(Swap(s, a, b), a + 1, b + 1, n - 1, k);
    }
  }

  /** The pair swaps rearrange any range holding both blocks. */
  lemma {:induction false} SwapBlockPermOn(s: seq<int>, a: int, b: int, n: nat, lo: int, hi: int)
    requires 0 <= lo <= a && lo <= b && a + n <= hi && b + n <= hi <= |s|
    ensures PermOn(s, SwapBlock(s, a, b, n), lo, hi)
    decreases n
  {
    if n == 0 {
      PermOnRefl(s, lo, hi);
    } else {
      var t := Swap(s, a, b);
      var r := SwapBlock(t, a + 1, b + 1, n - 1);
      assert r == SwapBlock(s, a, b, n);
      SwapPermOn(s, a, b, lo, hi);
      SwapBlockPermOn(t, a + 1, b + 1, n - 1, lo, hi);
      PermOnTrans(s, t, r, lo, hi);
    }
  }

  /** swap(x, a, b, n): the loop over the `n` pair swaps. */
  method VecSwap(x: seq<int>, a: int, b: int, n: nat) returns (y: seq<int>)
    requires 0 <= a && 0 <= b && a + n <= |x| && b + n <= |x|
    ensures y == SwapBlock(x, a, b, n)
  {
    y := x;
    var i := 0;
    while i < n
      invariant 0 <= i <= n && |y| == |x|
      invariant SwapBlock(y, a + i, b + i, n - i) == SwapBlock(x, a, b, n)
    {
      y := Swap(y, a + i, b + i);
      i := i + 1;
    }
  }

  /**
   The block exchange that moves the equal-to-pivot runs to the middle:
   with `P` holding on s[lo..mid) and `Q` on s[mid..hi), swapping the
   shorter run with the far end of the other gives `Q` on the first
   hi - mid places and `P` on the rest.
   */
  lemma {:induction false} BlockExchange(y: seq<int>, lo: int, mid: int, hi: int, P: int -> bool, Q: int -> bool)
    requires 0 <= lo <= mid <= hi <= |y|
    requires forall k :: lo <= k < mid ==> P(y[k])
    requires forall k :: mid <= k < hi ==> Q(y[k])
    ensures var r := SwapBlock(y, lo, hi - Min(mid - lo, hi - mid), Min(mid - lo, hi - mid));
      && (forall k :: lo <= k < lo + (hi - mid) ==> Q(r[k]))
      && (forall k :: lo + (hi - mid) <= k < hi ==> P(r[k]))
  {
    var s := Min(mid - lo, hi - mid);
    var r := SwapBlock(y, lo, hi - s, s);
    forall k | lo <= k < lo + (hi - mid)
      ensures Q(r[k])
    {
      SwapBlockAt(y, lo, hi - s, s, k);
    }
    forall k | lo + (hi - mid) <= k < hi
      ensures P(r[k])
    {
      SwapBlockAt(y, lo, hi - s, s, k);
    }
  }

  // ---------------------------------------------------------------
  // quickSort(x, from, to)

  /**
   The partition loop's invariant on y[from..to): `v` on [from, a), below
   `v` on [a, b), not yet looked at on [b, c], above `v` on (c, d], and `v`
   on (d, to).
   */
  ghost predicate Runs(y: seq<int>, fromIndex: int, a: int, b: int, c: int, d: int, toIndex: int, v: int)
  {
    && 0 <= fromIndex <= a <= b <= c + 1 <= d + 1 <= toIndex <= |y|
    && (forall k :: fromIndex <= k < a ==> y[k] == v)
    && (forall k :: a <= k < b ==> y[k] < v)
    && (forall k :: c < k <= d ==> y[k] > v)
    && (forall k :: d < k < toIndex ==> y[k] == v)
  }

  /**
   The first inner loop: advance `b` over elements not above `v`, moving
   each one equal to `v` to the left run. It stops at `c + 1` or at an
   element above `v`.
   */
  method ScanUp(ghost x: seq<int>, y0: seq<int>, fromIndex: int, a0: int, b0: int, c: int, d: int, toIndex: int, v: int)
    returns (y: seq<int>, a: int, b: int)
    requires Runs(y0, fromIndex, a0, b0, c, d, toIndex, v) && PermOn(x, y0, fromIndex, toIndex)
    ensures Runs(y, fromIndex, a, b, c, d, toIndex, v) && PermOn(x, y, fromIndex, toIndex)
    ensures b0 <= b && (b <= c ==> y[b] > v)
  {
    y, a, b := y0, a0, b0;
    while b <= c && y[b] <= v
      invariant Runs(y, fromIndex, a, b, c, d, toIndex, v) && PermOn(x, y, fromIndex, toIndex)
      invariant b0 <= b
      decreases c + 1 - b
    {
      if y[b] == v {
        SwapKeepsPermOn(x, y, a, b, fromIndex, toIndex);
        y := Swap(y, a, b);
        a := a + 1;
      }
      b := b + 1;
    }
  }

  /**
   The second inner loop: move `c` down over elements not below `v`,
   moving each one equal to `v` to the right run. It stops below `b` or at
   an element below `v`.
   */
  method ScanDown(ghost x: seq<int>, y0: seq<int>, fromIndex: int, a: int, b: int, c0: int, d0: int, toIndex: int, v: int)
    returns (y: seq<int>, c: int, d: int)
    requires Runs(y0, fromIndex, a, b, c0, d0, toIndex, v) && PermOn(x, y0, fromIndex, toIndex)
    requires b <= c0 ==> y0[b] > v
    ensures Runs(y, fromIndex, a, b, c, d, toIndex, v) && PermOn(x, y, fromIndex, toIndex)
    ensures c <= c0 && (b <= c ==> y[c] < v && y[b] > v)
  {
    y, c, d := y0, c0, d0;
    while c >= b && y[c] >= v
      invariant Runs(y, fromIndex, a, b, c, d, toIndex, v) && PermOn(x, y, fromIndex, toIndex)
      invariant c <= c0 && (b <= c ==> y[b] > v)
      decreases c + 1 - b
    {
      if y[c] == v {
        SwapKeepsPermOn(x, y, c, d, fromIndex, toIndex);
        MoveEqualRight(y, fromIndex, a, b, c, d, toIndex, v);
        y := Swap(y, c, d);
        d := d - 1;
      }
      c := c - 1;
    }
  }

  /** In the second inner loop, an element equal to `v` at `c` joins the right run. */
  lemma MoveEqualRight(y: seq<int>, fromIndex: int, a: int, b: int, c: int, d: int, toIndex: int, v: int)
    requires Runs(y, fromIndex, a, b, c, d, toIndex, v) && b <= c && y[c] == v && y[b] > v
    ensures Runs(Swap(y, c, d), fromIndex, a, b, c - 1, d - 1, toIndex, v)
    ensures b <= c - 1 ==> Swap(y, c, d)[b] > v
  {
  }

  /**
   The three-way partition loop of quickSort around the value `v`. It
   leaves x[from..to) as four runs: equal to `v` on [from, a), below `v`
   on [a, b), above `v` on [b, d] (c is b - 1 on exit), and equal to `v`
   on (d, to).
   */
  method Partition(x: seq<int>, fromIndex: int, toIndex: int, v: int) returns (y: seq<int>, a: int, b: int, c: int, d: int)
    requires 0 <= fromIndex < toIndex <= |x|
    ensures PermOn(x, y, fromIndex, toIndex)
    ensures Runs(y, fromIndex, a, b, c, d, toIndex, v) && c == b - 1
  {
    y := x;
    PermOnRefl(x, fromIndex, toIndex);
    a, b, c, d := fromIndex, fromIndex, toIndex - 1, toIndex - 1;
    while true
      invariant Runs(y, fromIndex, a, b, c, d, toIndex, v) && PermOn(x, y, fromIndex, toIndex)
      decreases c + 1 - b
    {
      y, a, b := ScanUp(x, y, fromIndex, a, b, c, d, toIndex, v);
      y, c, d := ScanDown(x, y, fromIndex, a, b, c, d, toIndex, v);
      if b > c {
        break;
      }
      SwapKeepsPermOn(x, y, b, c, fromIndex, toIndex);
      y := Swap(y, b, c);
      b, c := b + 1, c - 1;
    }
  }

  /**
   The value partitioned around occurs in the range, and it ends up in one
   of the two outer runs, so at least one of them is not empty.
   */
  lemma PivotSurvives(x: seq<int>, y: seq<int>, fromIndex: int, a: int, b: int, c: int, d: int, toIndex: int, m: int)
    requires PermOn(x, y, fromIndex, toIndex) && fromIndex <= m < toIndex
    requires Runs(y, fromIndex, a, b, c, d, toIndex, x[m]) && c == b - 1
    ensures fromIndex < a || d < toIndex - 1
  {
    PermOnRange(x, y, fromIndex, toIndex);
    assert x[m] in multiset(y[fromIndex..toIndex]) by {
      assert x[fromIndex..toIndex][m - fromIndex] == x[m];
    }
    var i :| 0 <= i < toIndex - fromIndex && y[fromIndex..toIndex][i] == x[m];
    assert y[fromIndex + i] == x[m];
  }

  /** Outside the range a rearrangement leaves every element where it was. */
  lemma PermOnOutside(a: seq<int>, b: seq<int>, lo: int, hi: int)
    requires PermOn(a, b, lo, hi)
    ensures forall k :: 0 <= k < lo ==> a[k] == b[k]
    ensures forall k :: hi <= k < |a| ==> a[k] == b[k]
  {
    forall k | 0 <= k < lo
      ensures a[k] == b[k]
    {
      assert a[..lo][k] == b[..lo][k];
    }
    forall k | hi <= k < |a|
      ensures a[k] == b[k]
    {
      assert a[hi..][k - hi] == b[hi..][k - hi];
    }
  }

  /** y[lo..hi) holds values below `v` on [lo, p), `v` on [p, q) and values above `v` on [q, hi). */
  ghost predicate ThreeWay(y: seq<int>, lo: int, p: int, q: int, hi: int, v: int)
  {
    && 0 <= lo <= p <= q <= hi <= |y|
    && (forall k :: lo <= k < p ==> y[k] < v)
    && (forall k :: p <= k < q ==> y[k] == v)
    && (forall k :: q <= k < hi ==> y[k] > v)
  }

  /**
   Between the two block exchanges: values below `v` on [from, p), `v` on
   [p, b), values above `v` on [b, d] and `v` again on (d, to).
   */
  ghost predicate Gathered(y: seq<int>, fromIndex: int, p: int, b: int, d: int, toIndex: int, v: int)
  {
    && 0 <= fromIndex <= p <= b <= d + 1 <= toIndex <= |y|
    && (forall k :: fromIndex <= k < p ==> y[k] < v)
    && (forall k :: p <= k < b ==> y[k] == v)
    && (forall k :: b <= k <= d ==> y[k] > v)
    && (forall k :: d < k < toIndex ==> y[k] == v)
  }

  /**
   The first block exchange, swap(x, from, b - s, s) with
   s = min(a - from, b - a): the run below the pivot value moves to the
   front of the range, the left run equal to it follows, and nothing from
   `b` on moves.
   */
  lemma {:induction false} ExchangeLeft(y: seq<int>, y1: seq<int>, fromIndex: int, a: int, b: int, d: int, toIndex: int, v: int, s: nat)
    requires Runs(y, fromIndex, a, b, b - 1, d, toIndex, v)
    requires s == Min(a - fromIndex, b - a) && y1 == SwapBlock(y, fromIndex, b - s, s)
    ensures PermOn(y, y1, fromIndex, toIndex)
    ensures Gathered(y1, fromIndex, fromIndex + (b - a), b, d, toIndex, v)
  {
    BlockExchange(y, fromIndex, a, b, w => w == v, w => w < v);
    SwapBlockPermOn(y, fromIndex, b - s, s, fromIndex, b);
    PermOnOutside(y, y1, fromIndex, b);
    PermOnWiden(y, y1, fromIndex, b, fromIndex, toIndex);
  }

  /**
   The second block exchange, swap(x, b, to - s, s) with
   s = min(d - c, to - d - 1) and c = b - 1: the right run equal to the
   pivot value moves next to the left one and the run above it goes to
   the end.
   */
  lemma {:induction false} ExchangeRight(y: seq<int>, y2: seq<int>, fromIndex: int, p: int, b: int, d: int, toIndex: int, v: int, s: nat)
    requires Gathered(y, fromIndex, p, b, d, toIndex, v)
    requires s == Min(d - (b - 1), toIndex - d - 1) && y2 == SwapBlock(y, b, toIndex - s, s)
    ensures PermOn(y, y2, fromIndex, toIndex)
    ensures ThreeWay(y2, fromIndex, p, toIndex - (d - (b - 1)), toIndex, v)
  {
    BlockExchange(y, b, d + 1, toIndex, w => w > v, w => w == v);
    SwapBlockPermOn(y, b, toIndex - s, s, b, toIndex);
    PermOnOutside(y, y2, b, toIndex);
    PermOnWiden(y, y2, b, toIndex, fromIndex, toIndex);
  }

  /**
   After the partition loop: the two calls swap(x, from, b - s, s) and
   swap(x, b, to - s, s) that move both runs equal to the pivot value into
   the middle of the range.
   */
  method SwapRunsToMiddle(y0: seq<int>, fromIndex: int, a: int, b: int, c: int, d: int, toIndex: int, v: int)
    returns (y: seq<int>)
    requires Runs(y0, fromIndex, a, b, c, d, toIndex, v) && c == b - 1
    ensures PermOn(y0, y, fromIndex, toIndex)
    ensures ThreeWay(y, fromIndex, fromIndex + (b - a), toIndex - (d - c), toIndex, v)
  {
    var s := Min(a - fromIndex, b - a);
    var y1 := VecSwap(y0, fromIndex, b - s, s);
    ExchangeLeft(y0, y1, fromIndex, a, b, d, toIndex, v, s);
    var t := Min(d - c, toIndex - d - 1);
    y := VecSwap(y1, b, toIndex - t, t);
    ExchangeRight(y1, y, fromIndex, fromIndex + (b - a), b, d, toIndex, v, t);
    PermOnTrans(y0, y1, y, fromIndex, toIndex);
  }

  /**
   Sorting the part below the pivot value keeps the three-way layout and
   leaves the rest of the range alone.
   */
  lemma SortedLeftPart(x: seq<int>, y2: seq<int>, y: seq<int>, fromIndex: int, p: int, q: int, toIndex: int, v: int)
    requires ThreeWay(y2, fromIndex, p, q, toIndex, v) && PermOn(x, y2, fromIndex, toIndex) && PermOn(y2, y, fromIndex, p)
    ensures ThreeWay(y, fromIndex, p, q, toIndex, v) && PermOn(x, y, fromIndex, toIndex)
    ensures forall k :: q <= k < toIndex ==> y[k] == y2[k]
  {
    PermOnKeeps(y2, y, fromIndex, p, w => w < v);
    PermOnOutside(y2, y, fromIndex, p);
    PermOnWiden(y2, y, fromIndex, p, fromIndex, toIndex);
    PermOnTrans(x, y2, y, fromIndex, toIndex);
  }

  /**
   Sorting the part above the pivot value keeps the three-way layout and
   leaves the rest of the range, and so its order, alone.
   */
  lemma SortedRightPart(x: seq<int>, y2: seq<int>, y: seq<int>, fromIndex: int, p: int, q: int, toIndex: int, v: int)
    requires ThreeWay(y2, fromIndex, p, q, toIndex, v) && PermOn(x, y2, fromIndex, toIndex) && PermOn(y2, y, q, toIndex)
    ensures ThreeWay(y, fromIndex, p, q, toIndex, v) && PermOn(x, y, fromIndex, toIndex)
    ensures SortedRange(y2, fromIndex, p) ==> SortedRange(y, fromIndex, p)
  {
    PermOnKeeps(y2, y, q, toIndex, w => w > v);
    PermOnOutside(y2, y, q, toIndex);
    PermOnWiden(y2, y, q, toIndex, fromIndex, toIndex);
    PermOnTrans(x, y2, y, fromIndex, toIndex);
  }

  /** Three runs, sorted below `v`, equal to `v`, and sorted above `v`, make a sorted range. */
  lemma SortedThreeWay(y: seq<int>, lo: int, p: int, q: int, hi: int, v: int)
    requires ThreeWay(y, lo, p, q, hi, v) && SortedRange(y, lo, p) && SortedRange(y, q, hi)
    ensures SortedRange(y, lo, hi)
  {
  }

  /**
   The partition around the value at `m` followed by the two block
   exchanges: the range becomes `lt` elements below that value, the
   elements equal to it, and `gt` elements above it. Both outer parts are
   shorter than the range because the value itself stays in the middle.
   */
  method PartitionAround(x: seq<int>, fromIndex: int, toIndex: int, m: int) returns (y: seq<int>, lt: int, gt: int)
    requires 0 <= fromIndex <= m < toIndex <= |x|
    ensures PermOn(x, y, fromIndex, toIndex)
    ensures 0 <= lt < toIndex - fromIndex && 0 <= gt < toIndex - fromIndex
    ensures ThreeWay(y, fromIndex, fromIndex + lt, toIndex - gt, toIndex, x[m])
  {
    var v := x[m];
    var y0, a, b, c, d := Partition(x, fromIndex, toIndex, v);
    PivotSurvives(x, y0, fromIndex, a, b, c, d, toIndex, m);
    lt, gt := b - a, d - c;
    y := SwapRunsToMiddle(y0, fromIndex, a, b, c, d, toIndex, v);
    PermOnTrans(x, y0, y, fromIndex, toIndex);
  }

  /**
   Where quickSort takes its partition value in a range of 16 or more: the
   median of three of the first, middle and last positions, where for
   ranges over 128 each of the three is itself the median of three
   positions `len / 8` apart (the pseudomedian of nine).
   */
  function Pivot(x: seq<int>, fromIndex: int, toIndex: int): (m: int)
    requires 0 <= fromIndex && fromIndex + QUICKSORT_NO_REC <= toIndex <= |x|
    ensures fromIndex <= m < toIndex
    ensures toIndex - fromIndex <= QUICKSORT_MEDIAN_OF_9 ==>
      IsMedian(x[m], x[fromIndex], x[fromIndex + (toIndex - fromIndex) / 2], x[toIndex - 1])
  {
    var len := toIndex - fromIndex;
    var m := fromIndex + len / 2;
    var l := fromIndex;
    var n := toIndex - 1;
    if len > QUICKSORT_MEDIAN_OF_9 then
      var s := len / 8;
      Med3(x, Med3(x, l, l + s, l + 2 * s), Med3(x, m - s, m, m + s), Med3(x, n - 2 * s, n - s, n))
    else
      Med3(x, l, m, n)
  }

  /**
   quickSort(x, from, to): ranges under 16 elements go to selectionSort;
   otherwise the pivot value is the median of three elements (each itself
   a median of three for ranges over 128), the range is partitioned three
   ways, the runs equal to the pivot are exchanged into the middle, and the
   parts below and above are sorted recursively when longer than one.
   */
  method QuickSortRange(x: seq<int>, fromIndex: int, toIndex: int) returns (y: seq<int>)
    requires 0 <= fromIndex <= toIndex <= |x|
    ensures PermOn(x, y, fromIndex, toIndex) && SortedRange(y, fromIndex, toIndex)
    decreases toIndex - fromIndex
  {
    var len := toIndex - fromIndex;
    if len < QUICKSORT_NO_REC {
      y := SelectionSort(x, fromIndex, toIndex);
      return;
    }
    var m := Pivot(x, fromIndex, toIndex);
    var v := x[m];
    var lt, gt;
    y, lt, gt := PartitionAround(x, fromIndex, toIndex, m);
    var y2 := y;
    if lt > 1 {
      y := QuickSortRange(y2, fromIndex, fromIndex + lt);
      SortedLeftPart(x, y2, y, fromIndex, fromIndex + lt, toIndex - gt, toIndex, v);
    }
    var y3 := y;
    if gt > 1 {
      y := QuickSortRange(y3, toIndex - gt, toIndex);
      SortedRightPart(x, y3, y, fromIndex, fromIndex + lt, toIndex - gt, toIndex, v);
    }
    SortedThreeWay(y, fromIndex, fromIndex + lt, toIndex - gt, toIndex, v);
  }

  /** quickSort(x): the whole array sorted. */
  method QuickSort(x: seq<int>) returns (y: seq<int>)
    ensures Sorted(y) && multiset(y) == multiset(x)
    ensures y == SortSpec(x)
  {
    y := QuickSortRange(x, 0, |x|);
    SortedUnique(y, SortSpec(x));
  }

  // ---------------------------------------------------------------
  // percentile(list, percentile)

  /** How the int[] access in percentile fails. */
  datatype PercentileError = ArrayIndexOutOfBounds(index: Int32)

  /**
   Math.ceil(p / q) for int `p` and a nonzero int `q`. Java divides in
   double arithmetic, which is exact enough here: the distance from p / q
   to the nearest integer above it is at least 1 / |q|, far above the
   rounding error of a double near |p / q| <= 2^31.
   */
  function CeilDiv(p: int, q: int): (r: int)
    requires q != 0
    ensures (r - 1) * q < p <= r * q || (r - 1) * q > p >= r * q
  {
    if q > 0 then -((-p) / q) else -(p / (-q))
  }

  /** Java's (int) cast of a whole double: values outside the int range clamp to its ends. */
  function Saturate(x: int): (r: Int32)
    ensures MIN_INT <= x <= MAX_INT ==> r == x
    ensures x > MAX_INT ==> r == MAX_INT
    ensures x < MIN_INT ==> r == MIN_INT
  {
    if x > MAX_INT then MAX_INT else if x < MIN_INT then MIN_INT else x
  }

  /**
   The index percentile reads, `(int) Math.ceil(p / (list.length * 100)) - 1`,
   where `list.length * 100` is int multiplication. When that product is 0
   the double quotient is +Infinity, -Infinity or NaN, which the (int) cast
   turns into MAX_INT, MIN_INT or 0; the final `- 1` is int arithmetic too.
   */
  function PercentileIndex(length: nat, p: Int32): (k: Int32)
  {
    var q := Wrap32(length * 100);
    var index: Int32 :=
      if q != 0 then Saturate(CeilDiv(p, q))
      else if p > 0 then MAX_INT
      else if p < 0 then MIN_INT
      else 0;
    Wrap32(index - 1)
  }

  /**
   percentile(list, p): quickSorts the list in place, then reads the
   element at PercentileIndex, failing when that index is outside the
   array. Both the sorted list and the outcome are returned.
   */
  method Percentile(list: seq<int>, p: Int32) returns (sorted: seq<int>, r: Result<int, PercentileError>)
    ensures sorted == SortSpec(list)
    ensures var k := PercentileIndex(|list|, p);
      if 0 <= k < |list| then r == Ok(sorted[k]) else r == Err(ArrayIndexOutOfBounds(k))
    ensures 0 < p <= |list| * 100 <= MAX_INT ==>
      r.Ok? && r.value in list && forall v :: v in list ==> r.value <= v
  {
    sorted := QuickSort(list);
    var k := PercentileIndex(|list|, p);
    if 0 <= k < |sorted| {
      r := Ok(sorted[k]);
    } else {
      r := Err(ArrayIndexOutOfBounds(k));
    }
    if 0 < p <= |list| * 100 <= MAX_INT {
      PercentileIsMinimum(|list|, p);
      SortedHeadIsLeast(list);
    }
  }

  /**
   For any percentile 0 < p <= length * 100 (with the product inside the
   int range) the index is 0: the "p-th percentile" is always the least
   element.
   */
  lemma PercentileIsMinimum(length: nat, p: Int32)
    requires 0 < p <= length * 100 <= MAX_INT
    ensures PercentileIndex(length, p) == 0
  {
    var q := length * 100;
    assert Wrap32(q) == q;
    NegativeQuotient(-p, q);
    assert CeilDiv(p, q) == 1;
    assert Saturate(CeilDiv(p, q)) == 1;
  }

  /** Euclidean division of a negative n, no further from zero than -q, by q > 0 gives -1. */
  lemma NegativeQuotient(n: int, q: int)
    requires 0 < q && -q <= n < 0
    ensures n / q == -1
  {
    var d, m := n / q, n % q;
    assert n == q * d + m && 0 <= m < q;
  }

  /** An empty list always makes percentile throw. */
  lemma EmptyPercentileThrows(p: Int32)
    ensures PercentileIndex(0, p) < 0 || PercentileIndex(0, p) >= 0x7FFF_FFFE
  {
  }

  /** The least element of the list comes first once it is sorted. */
  lemma SortedHeadIsLeast(list: seq<int>)
    requires list != []
    ensures forall v :: v in list ==> SortSpec(list)[0] <= v
    ensures SortSpec(list)[0] in list
  {
    var s := SortSpec(list);
    assert s[0] in multiset(list) by {
      assert s[0] in multiset(s);
    }
    forall v | v in list
      ensures s[0] <= v
    {
      assert v in multiset(s) by {
        assert v in multiset(list);
      }
      SortedHeadIsMin(s, v);
    }
  }
}

=== FILE: messaging_service.dfy ===
/**
 The sequential parts of the later MessagingService: the channel name, the
 send path from a packet to the bytes handed to the broker, and the receive
 path from broker bytes to a posted, dropped or logged outcome.
 */
module MessagingService {
  import opened JavaInt
  import opened Wrappers
  import opened CodecErrors
  import Codec
  import opened Packets
  import PacketManager
  import opened Buffer
  import Compression
  import CapacityWindow
  import opened Frames

  // ---------------------------------------------------------------
  // The service name: serviceName.trim().replace(" ", "_")

  /** String.trim() drops characters up to U+0020 from both ends. */
  predicate Blank(c: char)
  {
    c <= ' '
  }

  /** The index of the first non-blank character, or |s| if there is none. */
  function FirstKept(s: string): (i: nat)
    ensures i <= |s| && (forall k :: 0 <= k < i ==> Blank(s[k]))
    ensures i < |s| ==> !Blank(s[i])
  {
    if s == [] || !Blank(s[0]) then 0 else 1 + FirstKept(s[1..])
  }

  /** The index after the last non-blank character of s[lo..], or `lo` if there is none. */
  function EndKept(s: string, lo: nat): (j: nat)
    requires lo <= |s|
    ensures lo <= j <= |s| && (forall k :: j <= k < |s| ==> Blank(s[k]))
    ensures j > lo ==> !Blank(s[j - 1])
    decreases |s| - lo
  {
    if |s| == lo || !Blank(s[|s| - 1]) then |s| else EndKept(s[..|s| - 1], lo)
  }

  /** String.trim(). */
  function Trim(s: string): (r: string)
    ensures |r| <= |s|
    ensures r == [] || (!Blank(r[0]) && !Blank(r[|r| - 1]))
  {
    var i := FirstKept(s);
    s[i .. EndKept(s, i)]
  }

  /** replace(" ", "_"), one character at a time. */
  function Underscored(s: string): (r: string)
    ensures |r| == |s|
    ensures forall k :: 0 <= k < |s| ==> r[k] == if s[k] == ' ' then '_' else s[k]
  {
    seq(|s|, k requires 0 <= k < |s| => if s[k] == ' ' then '_' else s[k])
  }

  /** The normalised service name the constructor stores and uses as the channel. */
  function ServiceName(name: string): (r: string)
    ensures ' ' !in r
    ensures r == [] || (!Blank(r[0]) && !Blank(r[|r| - 1]))
  {
    Underscored(Trim(name))
  }

  /**
   The name keeps exactly the characters from the first to the last
   non-blank one, each space among them replaced by an underscore.
   */
  lemma {:induction false} ServiceNameChars(name: string)
    ensures var i := FirstKept(name); var j := EndKept(name, i);
      && |ServiceName(name)| == j - i
      && (forall k :: 0 <= k < j - i ==> ServiceName(name)[k] == if name[i + k] == ' ' then '_' else name[i + k])
  {
    var i := FirstKept(name);
    var j := EndKept(name, i);
    var t := Trim(name);
    assert t == name[i..j];
    var r := Underscored(t);
    assert r == ServiceName(name);
    forall k | 0 <= k < j - i
      ensures r[k] == if name[i + k] == ' ' then '_' else name[i + k]
    {
      assert t[k] == name[i + k];
    }
  }

  /** The name is empty exactly when every character of the given one is blank. */
  lemma {:induction false} ServiceNameEmpty(name: string)
    ensures ServiceName(name) == [] <==> forall k :: 0 <= k < |name| ==> Blank(name[k])
  {
    var i := FirstKept(name);
    var j := EndKept(name, i);
    assert |ServiceName(name)| == |Trim(name)| == j - i;
    if i < |name| {
      assert !Blank(name[i]);
    }
  }

  /** A string with no blank at either end trims to itself. */
  lemma {:induction false} TrimKeeps(s: string)
    requires s == [] || (!Blank(s[0]) && !Blank(s[|s| - 1]))
    ensures Trim(s) == s
  {
    assert FirstKept(s) == 0;
    assert EndKept(s, 0) == |s|;
  }

  /** Normalising twice is normalising once: a stored name is its own channel name. */
  lemma {:induction false} ServiceNameIdempotent(name: string)
    ensures ServiceName(ServiceName(name)) == ServiceName(name)
  {
    var r := ServiceName(name);
    TrimKeeps(r);
    assert Underscored(r) == r;
  }

  // ---------------------------------------------------------------
  // The service state

  /**
   What the sequential paths read and change: the random server id (a
   parameter of the model), the normalised name, the packet registry and
   the capacity window.
   */
  datatype Service = Service(
    serverId: Codec.Uuid,
    serviceName: string,
    manager: PacketManager.Manager,
    window: CapacityWindow.Window)

  /** The constructor, with `UUID.randomUUID()` supplied as `serverId`. */
  function New(name: string, manager: PacketManager.Manager, serverId: Codec.Uuid): (svc: Service)
    ensures svc.serviceName == ServiceName(name) && svc.manager == manager && svc.serverId == serverId
    ensures CapacityWindow.Valid(svc.window) && CapacityWindow.InitialCapacity(svc.window) == CapacityWindow.INITIAL_CAPACITY
  {
    Service(serverId, ServiceName(name), manager, CapacityWindow.New())
  }

  // ---------------------------------------------------------------
  // sendPacket

  /**
   The frame for `p` fits Netty's int writer index and its strings fit
   the int length prefix; the model does not follow larger frames.
   */
  predicate Sendable(svc: Service, p: Packet)
  {
    && CapacityWindow.Valid(svc.window)
    && Codec.Writable(p.message)
    && (PacketManager.Id(svc.manager, p).Some? ==>
          var id := PacketManager.Id(svc.manager, p).value;
          Codec.Writable(id) && |Frame(svc.serverId, id, Packets.Write(p))| <= MAX_INT)
  }

  /**
   sendPacket(packet): an unregistered packet throws before any buffer is
   made and the service is unchanged. Otherwise the frame is written to a
   new buffer, compressed and handed to the broker, and the buffer's writer
   index is recorded with addCapacity.
   */
  function Send(svc: Service, p: Packet): (r: (SendOutcome, Service))
    requires Sendable(svc, p)
    ensures r.0.NotRegistered? <==> PacketManager.Id(svc.manager, p).None?
    ensures r.0.NotRegistered? ==> r.0.simpleName == p.cls.simpleName && r.1 == svc
    ensures r.0.Sent? ==>
      var id := PacketManager.Id(svc.manager, p).value;
      && r.0.data == Frame(svc.serverId, id, Packets.Write(p))
      && r.1 == svc.(window := CapacityWindow.AddCapacity(svc.window, |r.0.data|))
  {
    match PacketManager.Id(svc.manager, p)
    case None => (NotRegistered(p.cls.simpleName), svc)
    case Some(id) =>
      var buf := Buf(Frame(svc.serverId, id, Packets.Write(p)), 0, MAX_INT);
      var (data, _) := Compression.CompressLater(buf);
      (Sent(data), svc.(window := CapacityWindow.AddCapacity(svc.window, buf.WriterIndex())))
  }

  // ---------------------------------------------------------------
  // handleMessage

  /**
   handleMessage(message): decompress, readUuid, readString, newInstance.
   An unknown type id is dropped before any payload byte is read; otherwise
   the new packet's `read` runs and the packet is posted. Any exception is
   caught and logged.
   */
  function HandleMessage(m: PacketManager.Manager, message: seq<Byte>): (r: Handled)
    ensures |message| < 16 ==> r == Logged(CodecError(IndexOutOfBoundsException, Underflow))
    ensures r.Dropped? ==> r.typeId !in m.idToSupplier
    ensures r.Posted? ==> exists id :: id in m.idToSupplier && m.idToSupplier[id].produces == r.packet.cls
  {
    var buf := Compression.Decompress(message);
    match ReadHeader(Later, buf.written, buf.readerIndex)
    case Threw(e, _) => Logged(e)
    case Done(h, p) => Dispatch(m, buf.written, h, p)
  }

  /** What handleMessage does once the header is read and the reader index is at `pos`. */
  function Dispatch(m: PacketManager.Manager, s: seq<Byte>, h: Header, pos: nat): (r: Handled)
    requires pos <= |s|
    ensures r.Dropped? <==> h.typeId !in m.idToSupplier
    ensures r.Dropped? ==> r == Dropped(h.sender, h.typeId)
    ensures r.Posted? ==>
      r.sender == h.sender && h.typeId in m.idToSupplier && m.idToSupplier[h.typeId].produces == r.packet.cls
  {
    match PacketManager.NewInstance(m, h.typeId)
    case None => Dropped(h.sender, h.typeId)
    case Some(packet) =>
      match Packets.Read(Later, packet, s, pos)
      case Threw(e, _) => Logged(e)
      case Done(read, _) => Posted(h.sender, read)
  }

  /** A packet's bytes at `pos`, under a type id whose supplier makes the packet's class, read back as the packet. */
  lemma {:induction false} DispatchPacket(m: PacketManager.Manager, s: seq<Byte>, h: Header, pos: nat, p: Packet)
    requires Packets.Fits(p.message) && Codec.At(s, pos, Packets.Write(p))
    requires PacketManager.NewInstance(m, h.typeId) == Some(Fresh(p.cls))
    ensures pos <= |s| && Dispatch(m, s, h, pos) == Posted(h.sender, p)
  {
    Codec.AtSlice(s, pos, Packets.Write(p));
    Packets.ReadWrite(Later, p, s, pos);
  }

  /**
   A frame carrying a packet's bytes, handled by a registry that makes the
   packet's class for the frame's type id, posts an equal packet from the
   frame's sender.
   */
  lemma {:induction false} HandleFrame(m: PacketManager.Manager, serverId: Codec.Uuid, typeId: string, p: Packet)
    requires IdFits(typeId) && Packets.Fits(p.message)
    requires PacketManager.NewInstance(m, typeId) == Some(Fresh(p.cls))
    ensures HandleMessage(m, Frame(serverId, typeId, Packets.Write(p))) == Posted(serverId, p)
  {
    var data := Frame(serverId, typeId, Packets.Write(p));
    var body := 16 + |Codec.WriteString(typeId)|;
    HeaderRoundTrip(Later, serverId, typeId, Packets.Write(p));
    PayloadAt(serverId, typeId, p);
    DispatchPacket(m, data, Header(serverId, typeId), body, p);
  }

  /**
   The frame round trip: bytes sent for a registered packet, handled by a
   service whose registry makes the same class for its type id, post an
   equal packet from the sending server.
   */
  lemma {:induction false} SendThenHandle(sender: Service, p: Packet, receiver: PacketManager.Manager)
    requires Sendable(sender, p) && Packets.Fits(p.message)
    requires PacketManager.Id(sender.manager, p).Some?
    requires var id := PacketManager.Id(sender.manager, p).value;
      IdFits(id) && PacketManager.NewInstance(receiver, id) == Some(Fresh(p.cls))
    ensures Send(sender, p).0.Sent?
    ensures HandleMessage(receiver, Send(sender, p).0.data) == Posted(sender.serverId, p)
  {
    HandleFrame(receiver, sender.serverId, PacketManager.Id(sender.manager, p).value, p);
  }

  /**
   A service sending to itself (or to one with the same registry) gets its
   packet back whenever the registry holds its class and the class's
   supplier makes that class.
   */
  lemma SendToSelf(svc: Service, p: Packet)
    requires Sendable(svc, p) && Packets.Fits(p.message) && PacketManager.Invariant(svc.manager)
    requires p.cls in svc.manager.registered && IdFits(svc.manager.mapper(p.cls))
    requires svc.manager.idToSupplier[svc.manager.mapper(p.cls)].produces == p.cls
    ensures Send(svc, p).0.Sent?
    ensures HandleMessage(svc.manager, Send(svc, p).0.data) == Posted(svc.serverId, p)
  {
    PacketManager.IdOfRegistered(svc.manager, p);
    SendThenHandle(svc, p, svc.manager);
  }

  /**
   A frame whose type id has no supplier is dropped with its sender and
   id, whatever follows the header: no payload byte is read.
   */
  lemma {:induction false} UnknownTypeDropped(m: PacketManager.Manager, serverId: Codec.Uuid, typeId: string, payload: seq<Byte>)
    requires IdFits(typeId) && typeId !in m.idToSupplier
    ensures HandleMessage(m, Frame(serverId, typeId, payload)) == Dropped(serverId, typeId)
  {
    HeaderRoundTrip(Later, serverId, typeId, payload);
  }
}

=== FILE: packet_manager.dfy ===
/**
 The later PacketManager: a mapper function from packet class to string id,
 the set of registered classes, and a map from id to the supplier of new
 instances.
 */
module PacketManager {
  import opened Wrappers
  import opened Packets

  /** A Supplier<T>: `get()` makes a new instance of class `produces`. */
  datatype Supplier = Supplier(produces: PacketClass)

  /** The IllegalArgumentException register and unregister throw, by cause. */
  datatype RegistryError =
    | ClassAlreadyRegistered(cls: PacketClass)
    | IdAlreadyRegistered(id: string, holder: Supplier)
    | ClassNotRegistered(cls: PacketClass)

  datatype Manager = Manager(
    mapper: PacketClass -> string,
    registered: set<PacketClass>,
    idToSupplier: map<string, Supplier>)

  /** `new PacketManager(mapperFunc)`: nothing registered yet. */
  function Empty(mapper: PacketClass -> string): (m: Manager)
    ensures m.registered == {} && m.idToSupplier == map[] && m.mapper == mapper
  {
    Manager(mapper, {}, map[])
  }

  /** `new PacketManager()`: the mapper is Class::getSimpleName. */
  function Default(): (m: Manager)
    ensures forall c :: m.mapper(c) == c.simpleName
  {
    Empty((c: PacketClass) => c.simpleName)
  }

  /** The ids of the registered classes. */
  ghost function MappedIds(m: Manager): set<string>
  {
    set c | c in m.registered :: m.mapper(c)
  }

  /**
   The registry's invariant: the ids with a supplier are exactly the ids of
   the registered classes, and no two registered classes share an id.
   */
  ghost predicate Invariant(m: Manager)
  {
    && m.idToSupplier.Keys == MappedIds(m)
    && forall c1, c2 :: c1 in m.registered && c2 in m.registered && m.mapper(c1) == m.mapper(c2) ==> c1 == c2
  }

  /**
   register(clazz, supplier): rejects a class already registered, then an
   id that already has a supplier (whichever class holds it); otherwise
   adds the class and the pair id -> supplier.
   */
  function Register(m: Manager, cls: PacketClass, supplier: Supplier): (r: Result<Manager, RegistryError>)
    ensures r.Err? <==> cls in m.registered || m.mapper(cls) in m.idToSupplier
    ensures cls in m.registered ==> r == Err(ClassAlreadyRegistered(cls))
    ensures cls !in m.registered && m.mapper(cls) in m.idToSupplier
        ==> r == Err(IdAlreadyRegistered(m.mapper(cls), m.idToSupplier[m.mapper(cls)]))
    ensures r.Ok? ==> r.value.mapper == m.mapper
    ensures r.Ok? ==> forall c :: c in r.value.registered <==> c in m.registered || c == cls
    ensures r.Ok? ==> forall id :: id in r.value.idToSupplier <==> id in m.idToSupplier || id == m.mapper(cls)
    ensures r.Ok? ==> r.value.idToSupplier[m.mapper(cls)] == supplier
    ensures r.Ok? ==> forall id :: id in m.idToSupplier ==> r.value.idToSupplier[id] == m.idToSupplier[id]
  {
    var id := m.mapper(cls);
    if cls in m.registered then Err(ClassAlreadyRegistered(cls))
    else if id in m.idToSupplier then Err(IdAlreadyRegistered(id, m.idToSupplier[id]))
    else Ok(m.(registered := m.registered + {cls}, idToSupplier := m.idToSupplier[id := supplier]))
  }

  /**
   unregister(clazz): rejects a class that is not registered; otherwise
   removes the class and whatever supplier its id maps to.
   */
  function Unregister(m: Manager, cls: PacketClass): (r: Result<Manager, RegistryError>)
    ensures r.Err? <==> cls !in m.registered
    ensures r.Err? ==> r.error == ClassNotRegistered(cls)
    ensures r.Ok? ==> r.value.mapper == m.mapper
    ensures r.Ok? ==> forall c :: c in r.value.registered <==> c in m.registered && c != cls
    ensures r.Ok? ==> forall id :: id in r.value.idToSupplier <==> id in m.idToSupplier && id != m.mapper(cls)
    ensures r.Ok? ==> forall id :: id in r.value.idToSupplier ==> r.value.idToSupplier[id] == m.idToSupplier[id]
  {
    if cls !in m.registered then Err(ClassNotRegistered(cls))
    else Ok(m.(registered := m.registered - {cls}, idToSupplier := m.idToSupplier - {m.mapper(cls)}))
  }

  /** id(packet): the mapped id of the packet's class, or null unless the class and the id are both registered. */
  function Id(m: Manager, p: Packet): (r: Option<string>)
    ensures r.Some? <==> p.cls in m.registered && m.mapper(p.cls) in m.idToSupplier
    ensures r.Some? ==> r.value == m.mapper(p.cls)
  {
    var id := m.mapper(p.cls);
    if p.cls !in m.registered || id !in m.idToSupplier then None else Some(id)
  }

  /** newInstance(id): null for an id without a supplier, else what the supplier makes. */
  function NewInstance(m: Manager, id: string): (r: Option<Packet>)
    ensures r.Some? <==> id in m.idToSupplier
    ensures r.Some? ==> r.value == Fresh(m.idToSupplier[id].produces)
  {
    if id !in m.idToSupplier then None else Some(Fresh(m.idToSupplier[id].produces))
  }

  lemma EmptyInvariant(mapper: PacketClass -> string)
    ensures Invariant(Empty(mapper))
  {
  }

  /** register keeps the invariant. */
  lemma RegisterPreserves(m: Manager, cls: PacketClass, supplier: Supplier)
    requires Invariant(m) && Register(m, cls, supplier).Ok?
    ensures Invariant(Register(m, cls, supplier).value)
  {
    var m' := Register(m, cls, supplier).value;
    var image := MappedIds(m');
    forall id | id in image ensures id in m'.idToSupplier.Keys {
      var c :| c in m'.registered && m.mapper(c) == id;
      if c != cls {
        assert id in MappedIds(m);
      }
    }
    forall id | id in m'.idToSupplier.Keys ensures id in image {
      if id != m.mapper(cls) {
        assert id in MappedIds(m);
        var c :| c in m.registered && m.mapper(c) == id;
        assert c in m'.registered;
      } else {
        assert cls in m'.registered;
      }
    }
  }

  /** unregister keeps the invariant. */
  lemma UnregisterPreserves(m: Manager, cls: PacketClass)
    requires Invariant(m) && Unregister(m, cls).Ok?
    ensures Invariant(Unregister(m, cls).value)
  {
    var m' := Unregister(m, cls).value;
    var image := MappedIds(m');
    forall id | id in image ensures id in m'.idToSupplier.Keys {
      var c :| c in m'.registered && m.mapper(c) == id;
      assert id in MappedIds(m);
    }
    forall id | id in m'.idToSupplier.Keys ensures id in image {
      assert id in MappedIds(m);
      var c :| c in m.registered && m.mapper(c) == id;
      assert c in m'.registered;
    }
  }

  /**
   Under the invariant, id(packet) answers exactly for registered classes,
   and newInstance on that id makes an instance of what the class was
   registered with.
   */
  lemma IdOfRegistered(m: Manager, p: Packet)
    requires Invariant(m)
    ensures Id(m, p).Some? <==> p.cls in m.registered
  {
    if p.cls in m.registered {
      assert m.mapper(p.cls) in MappedIds(m);
    }
  }

  /** After a successful register the packet's id resolves and newInstance uses the new supplier. */
  lemma RegisterThenLookup(m: Manager, cls: PacketClass, supplier: Supplier, p: Packet)
    requires Register(m, cls, supplier).Ok? && p.cls == cls
    ensures Id(Register(m, cls, supplier).value, p) == Some(m.mapper(cls))
    ensures NewInstance(Register(m, cls, supplier).value, m.mapper(cls)) == Some(Fresh(supplier.produces))
  {
  }

  /** Unregistering frees both the class and its id: the class can be registered again. */
  lemma UnregisterThenRegister(m: Manager, cls: PacketClass, supplier: Supplier)
    requires Invariant(m) && Unregister(m, cls).Ok?
    ensures Register(Unregister(m, cls).value, cls, supplier).Ok?
  {
  }

  /**
   Two different classes with the same simple name collide under the
   default mapper: the second register fails on the id.
   */
  lemma SameSimpleNameCollides()
    ensures var a, b := PacketClass("x.Ping", "Ping", true), PacketClass("y.Ping", "Ping", true);
      var m := Register(Default(), a, Supplier(a)).value;
      Register(m, b, Supplier(b)) == Err(IdAlreadyRegistered("Ping", Supplier(a)))
  {
  }
}

=== FILE: packets.dfy ===
/**
 Packet classes and packet instances. Every packet behaves like the earlier
 tree's SimplePacket: its state is one string, which `write` appends with
 writeString and `read` fills with readString(buf).
 */
module Packets {
  import opened JavaInt
  import opened CodecErrors
  import Codec
  import Utf8

  /**
   A packet class: its fully qualified name (the class's identity), its
   simple name, and whether reflection can build an instance through a
   public no-argument constructor.
   */
  datatype PacketClass = PacketClass(name: string, simpleName: string, instantiable: bool)

  /** A packet instance of class `cls` carrying `message`. */
  datatype Packet = Packet(cls: PacketClass, message: string)

  /**
   A new instance as a supplier or constructor yields it, before `read`
   fills it. Java leaves the field null; the model uses "" because the
   receive paths always call `read` before anything looks at the field.
   */
  function Fresh(cls: PacketClass): (p: Packet)
    ensures p.cls == cls
  {
    Packet(cls, "")
  }

  /** SimplePacket.write: the message as a length-prefixed string. */
  function Write(p: Packet): (w: seq<Byte>)
    requires Codec.Writable(p.message)
  {
    Codec.WriteString(p.message)
  }

  /**
   SimplePacket.read on instance `p`: the message read with the default cap
   replaces the packet's state, so a packet that was read can be written
   again; an exception from readString propagates.
   */
  function Read(rev: Revision, p: Packet, s: seq<Byte>, pos: nat): (r: Read<Packet>)
    requires pos <= |s|
    ensures r.Done? ==> r.value.cls == p.cls && pos < r.next <= |s|
    ensures r.Done? ==> Fits(r.value.message)
    ensures r.Threw? ==> pos <= r.at <= |s|
    ensures r.Threw? ==> r.error.thrown == RuntimeException || r.error.thrown == FrameCheck(rev)
  {
    match Codec.ReadString(rev, s, pos)
    case Threw(e, at) => Threw(e, at)
    case Done(str, next) =>
      Codec.WithinDefaultCapIsWritable(str);
      Done(p.(message := str), next)
  }

  /** What a packet writes, its `read` on a fresh instance of its class reads back. */
  lemma {:induction false} ReadWrite(rev: Revision, p: Packet, s: seq<Byte>, pos: nat)
    requires Fits(p.message) && Codec.At(s, pos, Write(p))
    ensures Read(rev, Fresh(p.cls), s, pos) == Done(p, pos + |Write(p)|)
  {
    Codec.DefaultStringRoundTrip(rev, s, pos, p.message);
  }

  /** A message readString(buf) accepts back: at most 65536 UTF-16 units, and so writable. */
  predicate Fits(message: string)
  {
    Utf8.Utf16Length(message) <= Codec.DEFAULT_MAX_STRING_SIZE && Codec.Writable(message)
  }
}

=== FILE: utf8.dfy ===
/**
 UTF-8 as Java's `String.getBytes(UTF_8)` / `ByteBuf.writeCharSequence`
 produce it, and the decoding `ByteBuf.toString(index, length, UTF_8)`
 applies. A Java string is modelled as a sequence of Unicode scalar values
 (Dafny `char`); `String.length()` counts UTF-16 units, two for a character
 outside the Basic Multilingual Plane.
 */
module Utf8 {
  import opened JavaInt

  /** U+FFFD, substituted for bytes that do not decode. */
  const REPLACEMENT: char := '\U{FFFD}'

  /** `String.length()`: the number of UTF-16 code units. */
  function Utf16Length(s: string): (n: nat)
    ensures |s| <= n <= 2 * |s|
  {
    if s == [] then 0 else (if s[0] as int >= 0x1_0000 then 2 else 1) + Utf16Length(s[1..])
  }

  /** The one to four bytes of a character, lead byte first. */
  function EncodeChar(c: char): (b: seq<Byte>)
    ensures 1 <= |b| <= 4
  {
    var cp := c as int;
    if cp < 0x80 then [cp]
    else if cp < 0x800 then [0xC0 + cp / 0x40, 0x80 + cp % 0x40]
    else if cp < 0x1_0000 then [0xE0 + cp / 0x1000, 0x80 + cp / 0x40 % 0x40, 0x80 + cp % 0x40]
    else [0xF0 + cp / 0x4_0000, 0x80 + cp / 0x1000 % 0x40, 0x80 + cp / 0x40 % 0x40, 0x80 + cp % 0x40]
  }

  /**
   `ByteBufUtil.utf8Bytes` counts, and `writeCharSequence` writes, these
   bytes. A character takes at most three bytes per UTF-16 unit, which is
   why a reader may bound a string of `cap` units by `cap * 4` bytes.
   */
  function Encode(s: string): (b: seq<Byte>)
    ensures |s| <= |b| <= 3 * Utf16Length(s)
  {
    if s == [] then [] else EncodeChar(s[0]) + Encode(s[1..])
  }

  predicate IsContinuation(b: Byte)
  {
    0x80 <= b < 0xC0
  }

  /**
   The character that `b` starts with and how many bytes it takes. A lead
   byte that does not begin a well-formed sequence (a stray continuation
   byte, an overlong form, a surrogate, a value above U+10FFFF, a truncated
   sequence) yields U+FFFD and consumes one byte.
   */
  function DecodeChar(b: seq<Byte>): (r: (char, nat))
    requires |b| >= 1
    ensures 1 <= r.1 <= |b| && r.1 <= 4
  {
    var b0: int := b[0];
    if b0 < 0x80 then (b0 as char, 1)
    else if 0xC2 <= b0 < 0xE0 && |b| >= 2 && IsContinuation(b[1]) then
      var cp: int := (b0 - 0xC0) * 0x40 + (b[1] as int - 0x80);
      (cp as char, 2)
    else if 0xE0 <= b0 < 0xF0 && |b| >= 3 && IsContinuation(b[1]) && IsContinuation(b[2]) then
      var cp: int := (b0 - 0xE0) * 0x1000 + (b[1] as int - 0x80) * 0x40 + (b[2] as int - 0x80);
      if 0x800 <= cp && !(0xD800 <= cp < 0xE000) then (cp as char, 3) else (REPLACEMENT, 1)
    else if 0xF0 <= b0 < 0xF5 && |b| >= 4 && IsContinuation(b[1]) && IsContinuation(b[2]) && IsContinuation(b[3]) then
      var cp: int := (b0 - 0xF0) * 0x4_0000 + (b[1] as int - 0x80) * 0x1000 + (b[2] as int - 0x80) * 0x40 + (b[3] as int - 0x80);
      if 0x1_0000 <= cp < 0x11_0000 then (cp as char, 4) else (REPLACEMENT, 1)
    else (REPLACEMENT, 1)
  }

  function Decode(b: seq<Byte>): string
    decreases |b|
  {
    if b == [] then [] else
      var (c, n) := DecodeChar(b);
      [c] + Decode(b[n..])
  }

  lemma DecodeEncodeChar(c: char, rest: seq<Byte>)
    ensures DecodeChar(EncodeChar(c) + rest) == (c, |EncodeChar(c)|)
  {
    var cp := c as int;
    if cp < 0x80 {
    } else if cp < 0x800 {
      DecodeTwo(c, rest);
    } else if cp < 0x1_0000 {
      DecodeThree(c, rest);
    } else {
      DecodeFour(c, rest);
    }
  }

  lemma DecodeTwo(c: char, rest: seq<Byte>)
    requires 0x80 <= c as int < 0x800
    ensures DecodeChar(EncodeChar(c) + rest) == (c, 2)
  {
    var cp := c as int;
    var b := EncodeChar(c) + rest;
    var hi, lo := cp / 0x40, cp % 0x40;
    assert hi * 0x40 + lo == cp;
    assert b[0] == 0xC0 + hi && b[1] == 0x80 + lo;
  }

  lemma DecodeThree(c: char, rest: seq<Byte>)
    requires 0x800 <= c as int < 0x1_0000
    ensures DecodeChar(EncodeChar(c) + rest) == (c, 3)
  {
    var cp := c as int;
    var b := EncodeChar(c) + rest;
    var q := cp / 0x40;
    var b0, b1, b2 := cp / 0x1000, q % 0x40, cp % 0x40;
    assert q * 0x40 + b2 == cp;
    assert q / 0x40 == b0;
    assert b0 * 0x40 + b1 == q;
    assert b[0] == 0xE0 + b0 && b[1] == 0x80 + b1 && b[2] == 0x80 + b2;
    assert b0 * 0x1000 + b1 * 0x40 + b2 == cp;
  }

  lemma DecodeFour(c: char, rest: seq<Byte>)
    requires 0x1_0000 <= c as int
    ensures DecodeChar(EncodeChar(c) + rest) == (c, 4)
  {
    var cp := c as int;
    var b := EncodeChar(c) + rest;
    var q := cp / 0x40;
    var r := q / 0x40;
    var b0, b1, b2, b3 := cp / 0x4_0000, r % 0x40, q % 0x40, cp % 0x40;
    assert q * 0x40 + b3 == cp;
    assert r * 0x40 + b2 == q;
    assert r / 0x40 == b0;
    assert b0 * 0x40 + b1 == r;
    assert r == cp / 0x1000;
    assert b[0] == 0xF0 + b0 && b[1] == 0x80 + b1 && b[2] == 0x80 + b2 && b[3] == 0x80 + b3;
    assert b0 * 0x4_0000 + b1 * 0x1000 + b2 * 0x40 + b3 == cp;
  }

  /** Decoding inverts encoding: a written string reads back unchanged. */
  lemma {:induction false} DecodeEncode(s: string)
    ensures Decode(Encode(s)) == s
  {
    if s != [] {
      var head := EncodeChar(s[0]);
      var tail := Encode(s[1..]);
      DecodeEncodeChar(s[0], tail);
      assert (head + tail)[|head|..] == tail;
      DecodeEncode(s[1..]);
    }
  }
}

=== FILE: var_int.dfy ===
/**
 Minecraft-style VarInt (PacketUtils.readVarInt / readVarIntSafely /
 writeVarInt): the 32 bits of a Java `int`, read unsigned, are written seven
 bits per byte, low group first, with 0x80 marking "another byte follows".
 */
module VarInt {
  import opened JavaInt
  import opened CodecErrors
  import opened Wrappers

  /** At most this many bytes are read for one varint. */
  const MAX_GROUPS: nat := 5

  function Pow128(j: nat): (p: nat)
    ensures p >= 1
  {
    if j == 0 then 1 else 128 * Pow128(j - 1)
  }

  lemma {:induction false} Pow128Monotonic(i: nat, j: nat)
    requires i <= j
    ensures Pow128(i) <= Pow128(j)
    decreases j - i
  {
    if i < j {
      Pow128Monotonic(i, j - 1);
    }
  }

  lemma Pow128Values()
    ensures Pow128(4) == 0x1000_0000 && Pow128(5) == 0x8_0000_0000
  {
    assert Pow128(1) == 128;
    assert Pow128(2) == 128 * 128;
    assert Pow128(3) == 128 * 128 * 128;
  }

  /**
   The loop of writeVarInt on the unsigned value `u`: while `u` does not fit
   in seven bits (`value & 0xFFFFFF80` is non-zero), write the low seven bits
   with 0x80 set and shift right unsigned (`>>>= 7`); then write `u` itself.
   The result is the shortest such encoding: it has exactly as many groups
   as `u` needs.
   */
  function EncodeUnsigned(u: nat): (w: seq<Byte>)
    ensures 1 <= |w|
    decreases u
  {
    if u < 0x80 then [u] else [u % 0x80 + 0x80] + EncodeUnsigned(u / 0x80)
  }

  /** Every byte but the last carries the continuation bit 0x80. */
  lemma {:induction false} EncodeUnsignedShape(u: nat)
    ensures forall i :: 0 <= i < |EncodeUnsigned(u)| - 1 ==> EncodeUnsigned(u)[i] >= 0x80
    ensures EncodeUnsigned(u)[|EncodeUnsigned(u)| - 1] < 0x80
    decreases u
  {
    if u >= 0x80 {
      EncodeUnsignedShape(u / 0x80);
    }
  }

  /** The encoding has exactly as many groups as `u` needs. */
  lemma {:induction false} GroupCount(u: nat)
    ensures u < Pow128(|EncodeUnsigned(u)|)
    ensures |EncodeUnsigned(u)| == 1 || Pow128(|EncodeUnsigned(u)| - 1) <= u
    decreases u
  {
    if u >= 0x80 {
      GroupCount(u / 0x80);
    }
  }

  /** writeVarInt(buf, value): the bytes appended to the buffer. */
  function Write(v: Int32): (w: seq<Byte>)
    ensures 1 <= |w| <= MAX_GROUPS
    ensures |w| == 1 <==> 0 <= v < 0x80
    ensures v < 0 ==> |w| == MAX_GROUPS
  {
    EncodedLength(Unsigned32(v));
    EncodeUnsigned(Unsigned32(v))
  }

  /**
   writeVarInt's output is one to five bytes, of which only the last has the
   0x80 bit clear, so a reader knows where the varint ends.
   */
  lemma WriteShape(v: Int32)
    ensures 1 <= |Write(v)| <= MAX_GROUPS
    ensures forall i :: 0 <= i < |Write(v)| - 1 ==> Write(v)[i] >= 0x80
    ensures Write(v)[|Write(v)| - 1] < 0x80
  {
    EncodeUnsignedShape(Unsigned32(v));
  }

  /** An unsigned 32-bit value needs one to five groups, five exactly from 2^28 up. */
  lemma EncodedLength(u: nat)
    requires u < TWO_32
    ensures 1 <= |EncodeUnsigned(u)| <= MAX_GROUPS
    ensures |EncodeUnsigned(u)| == 1 <==> u < 0x80
    ensures u >= 0x1000_0000 ==> |EncodeUnsigned(u)| == MAX_GROUPS
  {
    var w := EncodeUnsigned(u);
    GroupCount(u);
    Pow128Values();
    if u >= 0x1000_0000 && |w| < MAX_GROUPS {
      Pow128Monotonic(|w|, 4);
    }
  }

  /**
   The bytes readVarIntSafely reads from index `pos + j` on, when it may read
   up to index `pos + maxRead`: the number their seven-bit groups spell, low
   group first, and the reader index after the first byte with 0x80 clear; or
   None when the bytes run out before such a byte.
   Java ORs each group `(k & 0x7F) << j * 7` into a 32-bit `int`. The groups
   occupy disjoint bits, so that `int` is this number reduced modulo 2^32
   (the fifth group's bits above bit 31 are shifted out).
   */
  function Groups(s: seq<Byte>, pos: nat, j: nat, maxRead: nat): (r: Option<(nat, nat)>)
    requires j <= maxRead && pos + maxRead <= |s|
    ensures r.Some? ==> pos + j < r.value.1 <= pos + maxRead
    decreases maxRead - j
  {
    if j == maxRead then None
    else
      var k := s[pos + j];
      if k < 0x80 then Some((k, pos + j + 1))
      else
        match Groups(s, pos, j + 1, maxRead)
        case None => None
        case Some((x, next)) => Some((k % 0x80 + 0x80 * x, next))
  }

  /**
   readVarIntSafely(buf): the value, or the sentinel Integer.MIN_VALUE when
   none of the first min(5, readable) bytes ends the varint; and the new
   reader index.
   */
  function ReadSafely(s: seq<Byte>, pos: nat): (r: (Int32, nat))
    requires pos <= |s|
    ensures pos <= r.1 <= |s| && r.1 <= pos + MAX_GROUPS
  {
    var maxRead := if |s| - pos < MAX_GROUPS then |s| - pos else MAX_GROUPS;
    match Groups(s, pos, 0, maxRead)
    case None => (MIN_INT, pos + maxRead)
    case Some((x, next)) => (Signed32(x % TWO_32), next)
  }

  /** readVarInt(buf): the sentinel becomes a "Bad varint decoded" exception. */
  function Read(s: seq<Byte>, pos: nat): (r: Read<Int32>)
    requires pos <= |s|
    ensures r.Done? ==> pos < r.next <= |s| && r.next <= pos + MAX_GROUPS && r.value != MIN_INT
    ensures r.Threw? ==> r.error == CodecError(RuntimeException, BadVarInt) && pos <= r.at <= |s|
  {
    var (v, next) := ReadSafely(s, pos);
    if v == MIN_INT then Threw(CodecError(RuntimeException, BadVarInt), next) else Done(v, next)
  }

  /** The groups of an encoding of `u` placed at `pos + j` spell `u` again. */
  lemma {:induction false} GroupsOfEncoding(s: seq<Byte>, pos: nat, j: nat, maxRead: nat, u: nat)
    requires j <= maxRead && pos + maxRead <= |s|
    requires j + |EncodeUnsigned(u)| <= maxRead
    requires s[pos + j .. pos + j + |EncodeUnsigned(u)|] == EncodeUnsigned(u)
    ensures Groups(s, pos, j, maxRead) == Some((u, pos + j + |EncodeUnsigned(u)|))
    decreases u
  {
    var w := EncodeUnsigned(u);
    assert s[pos + j] == w[0];
    if u >= 0x80 {
      var rest := EncodeUnsigned(u / 0x80);
      assert w == [u % 0x80 + 0x80] + rest;
      assert s[pos + j + 1 .. pos + j + 1 + |rest|] == rest by {
        assert s[pos + j + 1 .. pos + j + 1 + |rest|] == w[1..];
      }
      GroupsOfEncoding(s, pos, j + 1, maxRead, u / 0x80);
    }
  }

  /** The encoding is no longer than five bytes and decodes to the same unsigned value. */
  lemma ReadUnsigned(s: seq<Byte>, pos: nat, u: nat)
    requires u < TWO_32
    requires pos + |EncodeUnsigned(u)| <= |s|
    requires s[pos .. pos + |EncodeUnsigned(u)|] == EncodeUnsigned(u)
    ensures ReadSafely(s, pos) == (Signed32(u), pos + |EncodeUnsigned(u)|)
  {
    EncodedLength(u);
    var maxRead := if |s| - pos < MAX_GROUPS then |s| - pos else MAX_GROUPS;
    GroupsOfEncoding(s, pos, 0, maxRead, u);
    ModSmall(u, TWO_32);
  }

  /**
   readVarInt inverts writeVarInt for every `int` but Integer.MIN_VALUE,
   and leaves the reader index just past the bytes written.
   */
  lemma RoundTrip(s: seq<Byte>, pos: nat, v: Int32)
    requires v != MIN_INT
    requires pos + |Write(v)| <= |s| && s[pos .. pos + |Write(v)|] == Write(v)
    ensures Read(s, pos) == Done(v, pos + |Write(v)|)
  {
    ReadUnsigned(s, pos, Unsigned32(v));
    SignedUnsigned32(v);
  }

  /**
   Integer.MIN_VALUE is written as five bytes that read back as the "bad
   varint" sentinel, so readVarInt rejects its own writer's output.
   */
  lemma MinValueRejected(s: seq<Byte>, pos: nat)
    requires pos + |Write(MIN_INT)| <= |s| && s[pos .. pos + |Write(MIN_INT)|] == Write(MIN_INT)
    ensures Write(MIN_INT) == [0x80, 0x80, 0x80, 0x80, 0x08]
    ensures Read(s, pos) == Threw(CodecError(RuntimeException, BadVarInt), pos + 5)
  {
    ReadUnsigned(s, pos, Unsigned32(MIN_INT));
  }

  /** Bytes that all carry the continuation bit never end the varint. */
  lemma {:induction false} GroupsUnterminated(s: seq<Byte>, pos: nat, j: nat, maxRead: nat)
    requires j <= maxRead && pos + maxRead <= |s|
    requires forall i :: pos + j <= i < pos + maxRead ==> s[i] >= 0x80
    ensures Groups(s, pos, j, maxRead).None?
    decreases maxRead - j
  {
    if j < maxRead {
      GroupsUnterminated(s, pos, j + 1, maxRead);
    }
  }

  /** A varint that is read ends at the first byte with the 0x80 bit clear. */
  lemma {:induction false} GroupsTerminated(s: seq<Byte>, pos: nat, j: nat, maxRead: nat)
    requires j <= maxRead && pos + maxRead <= |s|
    requires Groups(s, pos, j, maxRead).Some?
    ensures s[Groups(s, pos, j, maxRead).value.1 - 1] < 0x80
    ensures forall i :: pos + j <= i < Groups(s, pos, j, maxRead).value.1 - 1 ==> s[i] >= 0x80
    decreases maxRead - j
  {
    if s[pos + j] >= 0x80 {
      GroupsTerminated(s, pos, j + 1, maxRead);
    }
  }

  /**
   readVarIntSafely consumes bytes up to and including the first one whose
   0x80 bit is clear, which lies among the first five; every byte before it
   carries the continuation bit.
   */
  lemma ReadStopsAtTerminator(s: seq<Byte>, pos: nat)
    requires pos <= |s|
    requires Read(s, pos).Done?
    ensures s[Read(s, pos).next - 1] < 0x80
    ensures forall i :: pos <= i < Read(s, pos).next - 1 ==> s[i] >= 0x80
  {
    var maxRead := if |s| - pos < MAX_GROUPS then |s| - pos else MAX_GROUPS;
    GroupsTerminated(s, pos, 0, maxRead);
  }

  /**
   readVarInt fails once it has looked at min(5, readable) bytes without
   finding one whose 0x80 bit is clear; in particular on an empty buffer.
   */
  lemma UnterminatedRejected(s: seq<Byte>, pos: nat)
    requires pos <= |s|
    requires forall i :: pos <= i < |s| && i < pos + MAX_GROUPS ==> s[i] >= 0x80
    ensures Read(s, pos).Threw?
    ensures Read(s, pos).at == if |s| - pos < MAX_GROUPS then |s| else pos + MAX_GROUPS
  {
    var maxRead := if |s| - pos < MAX_GROUPS then |s| - pos else MAX_GROUPS;
    GroupsUnterminated(s, pos, 0, maxRead);
  }
}

=== FILE: wrappers.dfy ===
/** Failure-carrying values shared by the registry and service models. */
module Wrappers {

  /** A possibly absent value: Java's nullable references. */
  datatype Option<+T> = None | Some(value: T)

  /** Either a value or the exception the Java code would throw instead. */
  datatype Result<+T, +E> = Ok(value: T) | Err(error: E)
}
